=== FILE: README.md ===
# Barbershop booking rules, modelled in Dafny

This project models the decision and data-shaping rules of a barbershop
booking web application. Clients pick a service, a day, a half-hour slot
and their contact details. Staff see every booking. Administrators manage
the service catalogue and staff accounts. The application itself is a
React front end over a hosted database. What is modelled here is the part
that can be stated without the browser or the network:

- the field rules of the booking and sign-up schemas, with each regular
  expression written out as a recogniser over characters;
- the day picker's disabled days, the fixed slot grid, and the slots
  already taken on the chosen day;
- the booking form's submit path and the page's submit handler, in the
  order the code checks service, date, time and user;
- role flags, the role badge, the route guard and the staff dashboard's
  redirects;
- list shaping: flattening the joined service name, the upcoming/past
  split with its five-entry history, grouping services by category, and
  the chronological (stable) sort of the staff table;
- how every hook classifies a backend response, including the
  zero-rows-updated rule, the row-level-security message, and staff
  account creation surviving a failed promotion;
- the password-reset rule and its session gate.

Each backend call is replaced by the response it produced (`Remote.Response`):
an optional error and optional data. A mutation that refetches also takes
the refetch's response as a parameter. "Today" and "now" are parameters.
Calendar days are `Calendar.CalendarDate` values with a day index
(`Calendar.DayNumber`, days since 1970-01-01) and a weekday. Booking
instants are minutes on a local clock (`Instants.LocalInstant`).

One module per source file, in the file named after it, plus shared
modules: `Wrappers` (Option/Result), `Text` (trim, digits, UTF-16 length,
substring search), `Seqs` (filter and map), `Calendar` (days and the
`yyyy-MM-dd` format), `Remote` (responses and list state) and `Instants`.

## Model

| member | source | states |
|---|---|---|
| Text.Trim | src/lib/validations.ts:5 | the trimmed string is the slice of the input between its leading and trailing white space; neither end of the result is white space |
| Text.TrimIdempotent | src/lib/validations.ts:5 | trimming a trimmed string changes nothing |
| Text.Utf16Length | src/lib/validations.ts:6-7 | the length zod measures counts two units for a code point above U+FFFF, so it lies between the code-point count and twice it |
| Text.DigitsOnly | src/lib/validations.ts:13 | removing every non-digit leaves only digits and never lengthens the string; a single digit is kept and a single non-digit is dropped |
| Text.DigitsOnlyAppend | src/lib/validations.ts:13 | stripping non-digits distributes over concatenation |
| Text.DigitsOnlyOfDigits | src/lib/validations.ts:13 | a digits-only string is left unchanged by the strip |
| Text.BeforeFirst | src/hooks/useAdminManagement.ts:58 | `split("@")[0]` is the longest prefix without the separator, and the separator follows it when anything does |
| Calendar.Weekday | src/components/BookingCalendar.tsx:30 | the weekday of a day is in 0..6, 0 being Sunday |
| Calendar.NextDayNumber | src/components/BookingCalendar.tsx:28-30 | the day numbering counts days: the day after any valid day, across month, February and year ends, is valid, numbered one more and on the next weekday |
| Calendar.MarchYearLength | src/components/BookingCalendar.tsx:28-30 | a year counted from March has 365 days, plus one when the February that ends it is a Gregorian leap February |
| Calendar.KnownDays | src/components/BookingCalendar.tsx:30 | 1970-01-01 is day 0 and 2025-06-08 is a Sunday, fixing the weekday convention `getDay` uses |
| Calendar.FormatIso | src/pages/Index.tsx:48 | formatting a valid day as `yyyy-MM-dd` gives exactly the shape the date rule expects |
| Calendar.ParseIso | src/lib/validations.ts:18 | reading a `yyyy-MM-dd` string gives a day only when month and day are in range |
| Calendar.ParseFormat | src/lib/validations.ts:16-18 | reading back a formatted valid day gives the same day (round trip) |
| Calendar.FormatInjective | src/pages/Index.tsx:30 | different valid days format to different strings, so comparing formatted dates compares days |
| Validations.ValidateName | src/lib/validations.ts:4-8 | a name passes iff, trimmed, it is 2..100 UTF-16 units of ASCII letters, U+00C0..U+00FF or white space; the accepted value is the trimmed text; the error is the first rule broken in the order minimum length, maximum length, character set |
| Validations.ValidateNameIdempotent | src/lib/validations.ts:4-8 | an accepted name passes again unchanged |
| Validations.ValidatePhone | src/lib/validations.ts:10-13 | a phone passes iff its trimmed text matches the pattern; the stored value is its digits only, 8 to 11 of them |
| Validations.PhoneDigitCount | src/lib/validations.ts:12-13 | a matching phone has 8 or 9 local digits plus 0 or 2 area-code digits |
| Validations.PhoneNonDigits | src/lib/validations.ts:12 | the only non-digits a matching phone can hold are an opening parenthesis first, a closing one after the two area digits, one white-space character after the area code, and one hyphen before the last four digits |
| Validations.NormalBookingValidates | src/lib/validations.ts:3-26 | booking data already in normal form (a trimmed accepted name, 8 to 11 digits, a passing date and time) validates to itself, and its phone has nothing to trim |
| Validations.ValidateBookingIdempotent | src/lib/validations.ts:3-26 | parsed booking data is a fixed point of the schema: its name and phone are already trimmed and parse again to the same data |
| Validations.PhoneRoundTrip | src/lib/validations.ts:12-13 | any 8 to 11 digits pass the phone rule and come back unchanged |
| Validations.PhoneExample | src/lib/validations.ts:12 | the example in the rule's message, `(11) 98765-4321`, passes |
| Validations.ValidateTime | src/lib/validations.ts:24-25 | a time passes iff it is two digits, a colon and two digits; it is kept as given |
| Validations.TimeShapeOnly | src/lib/validations.ts:25 | there is no range check, so `99:99` passes, while `9:00` and a trailing space fail |
| Validations.ValidateDate | src/lib/validations.ts:15-22 | corrected date rule: a date passes iff it has the `dddd-dd-dd` shape, has month 01..12 and day 01..31 (an impossible day such as 02-31 is accepted, the engine rolling it over into the next month), and is today or later; a shape failure is reported as such |
| Validations.ValidateFormattedDate | src/lib/validations.ts:17-22 | a formatted calendar day passes the corrected rule exactly when it is not before today |
| Validations.DateAsWrittenByZone | src/lib/validations.ts:17-22 | the rule as written accepts only days after today in a zone west of UTC, and today or later east of it |
| Validations.TodayRefusedWestOfUtc | src/lib/validations.ts:17-22 | in UTC-3, today's date is refused by the rule as written and accepted by the corrected one |
| Validations.ValidateBooking | src/lib/validations.ts:3-26 | the booking schema passes iff every field rule passes; the result holds the trimmed name, the digits of the typed phone (8 to 11 of them), and the date and time as given; the first failing field in schema order (name, phone, date, time) is reported; the date uses the corrected rule |
| Validations.ValidatePassword | src/lib/validations.ts:34-36 | a password passes iff it is 8..72 UTF-16 units, untrimmed; a shorter one is refused as too short and a longer one as too long |
| Validations.ValidateEmail | src/lib/validations.ts:29-32 | an e-mail passes iff, trimmed, it satisfies the e-mail check and is at most 255 units; the accepted value is the trimmed text; a failed format check is reported before the length |
| Validations.SignUpProfileBooks | src/lib/validations.ts:39-48 | the full name and phone accepted at sign-up pass the booking schema's name and phone rules unchanged |
| Validations.ValidateAuth | src/lib/validations.ts:28-48 | the sign-up schema passes iff e-mail, password, full name (the booking-name rule) and phone (the booking-phone rule) all pass; the result holds the trimmed e-mail, the password as typed, the trimmed name and the digits of the typed phone; the first failing field in schema order (e-mail, password, full name, phone) is reported |
| BookingCalendar.IsDisabled | src/components/BookingCalendar.tsx:13-31 | a day is disabled iff it is before today or is a Sunday |
| BookingCalendar.PastAndSundaysDisabled | src/components/BookingCalendar.tsx:28-30 | every past day and every Sunday, however far ahead, is disabled |
| BookingCalendar.TodayAndLaterSelectable | src/components/BookingCalendar.tsx:28-30 | today and every later non-Sunday can be picked |
| BookingCalendar.TimeOfDayIgnored | src/components/BookingCalendar.tsx:13-29 | the time of day of either side does not change the decision |
| BookingCalendar.FutureSundayDisabled | src/components/BookingCalendar.tsx:30 | a concrete future Sunday is disabled |
| Instants.LocalInstant | src/pages/Admin.tsx:56-57 | a booking's date and time give an instant iff the date is a real `yyyy-MM-dd` day and the time a clock time; the instant falls within that day |
| Instants.InstantOrder | src/pages/Admin.tsx:55-59 | instants order bookings by day first and time of day second |
| Instants.FormattedInstant | src/components/MyBookings.tsx:42 | a formatted calendar day with a clock time always yields an instant |
| TimeSlotSelector.GridShape | src/components/TimeSlotSelector.tsx:12-16 | the grid is 19 strictly increasing times from 09:00 to 19:00 with nothing between 11:30 and 13:00 |
| TimeSlotSelector.GridTimesValid | src/components/TimeSlotSelector.tsx:12-16 | every time the picker offers passes the booking schema's time rule unchanged |
| TimeSlotSelector.Render | src/components/TimeSlotSelector.tsx:18-64 | no slot is offered without a date; otherwise one button per grid time, booked iff its time is among the booked times, selected iff it is the selected time; the notice shows iff something is booked |
| TimeSlotSelector.Click | src/components/TimeSlotSelector.tsx:47 | a click picks the button's time iff it is not booked |
| TimeSlotSelector.ClickPicksFreeGridTime | src/components/TimeSlotSelector.tsx:41-48 | any pick is a grid time that is not booked for the day |
| TimeSlotSelector.OffGridBookingsIgnored | src/components/TimeSlotSelector.tsx:41-42 | a booked time outside the grid changes no button |
| Remote.ReasonOf | src/hooks/useServices.ts:53 | an error toast shows the backend message when it is non-empty and the generic one otherwise |
| Remote.ApplyFetch | src/hooks/useServices.ts:12-28 | a failed fetch keeps the list, a successful one replaces it with the data or with nothing; loading ends either way |
| Remote.InsertOrDelete | src/hooks/useServices.ts:34-103 | success iff the response has no error; a failure leaves the list as it was; a success refetches |
| Remote.UpdateRows | src/hooks/useServices.ts:58-89 | success iff no error and at least one row came back; zero rows give the admins-only message; a failure leaves the list as it was |
| Remote.SuccessIgnoresRefetch | src/hooks/useServices.ts:48-83 | the refetch's outcome never changes a mutation's success |
| ServicesStore.FetchServices | src/hooks/useServices.ts:12-28 | a fetch error keeps the services and raises a toast; loading ends either way |
| ServicesStore.CreateService | src/hooks/useServices.ts:34-56 | create succeeds iff the insert reports no error |
| ServicesStore.UpdateService | src/hooks/useServices.ts:58-89 | an error or zero updated rows is a failure, the latter with the admins-only message; one row or more succeeds and refetches |
| ServicesStore.DeleteService | src/hooks/useServices.ts:91-103 | delete succeeds iff the delete reports no error |
| TimeSlotsStore.FetchTimeSlots | src/hooks/useTimeSlots.ts:12-27 | a fetch error keeps the slots and raises a toast; loading ends either way |
| TimeSlotsStore.CreateTimeSlot | src/hooks/useTimeSlots.ts:54-68 | create succeeds iff the insert reports no error |
| TimeSlotsStore.UpdateTimeSlot | src/hooks/useTimeSlots.ts:70-98 | an error or zero updated rows is a failure, the latter with the admins-only message; one row or more succeeds and refetches |
| TimeSlotsStore.RefusedToggleChangesNothing | src/hooks/useTimeSlots.ts:84-87 | a toggle refused with zero rows leaves the list and reports admins-only |
| TimeSlotsStore.DeleteTimeSlot | src/hooks/useTimeSlots.ts:100-112 | delete succeeds iff the delete reports no error |
| BookingStore.ServiceNameOf | src/hooks/useBookings.ts:35 | the flattened service name is present iff the join is present with a non-empty name |
| BookingStore.Flatten | src/hooks/useBookings.ts:33-36 | flattening keeps the length, the order and every other column of each row, and each booking's service name is the joined service's name (`ServiceNameOf`) |
| BookingStore.FlattenAppend | src/hooks/useBookings.ts:33-36 | flattening works row by row: two lists back to back flatten to the two flattened lists back to back |
| BookingStore.FetchBookings | src/hooks/useBookings.ts:19-46 | a fetch error keeps the previous list; otherwise the flattened rows replace it; loading ends either way |
| BookingStore.CreateFailureReason | src/hooks/useBookings.ts:79-83 | a create error asks the user to log in iff its message contains "row-level security", and shows the generic message otherwise |
| BookingStore.CreateBooking | src/hooks/useBookings.ts:48-86 | success iff the insert reports no error; a failure keeps the list with the reason above; a success refetches first |
| BookingStore.PolicyRefusalAsksForLogin | src/hooks/useBookings.ts:79-84 | any error message with "row-level security" spliced into it yields the login prompt and failure |
| BookingStore.DeleteBooking | src/hooks/useBookings.ts:88-105 | a delete error skips the refetch; a success refetches |
| MyBookingsStore.FetchMyBookings | src/hooks/useMyBookings.ts:20-53 | without a user id nothing changes; an error keeps the list; otherwise the flattened rows replace it; loading ends |
| MyBookingsStore.MountMyBookings | src/hooks/useMyBookings.ts:55-62 | without a user id the list is emptied and loading ends with no fetch |
| MyBookingsStore.OwnerScopedDelete | src/hooks/useMyBookings.ts:88-92 | the delete removes exactly the rows with both the booking id and the owner id, and keeps every other row |
| MyBookingsStore.OthersUntouched | src/hooks/useMyBookings.ts:88-92 | the rows of every other owner are exactly as before, in order, even one with the same booking id |
| MyBookingsStore.DeleteMyBooking | src/hooks/useMyBookings.ts:86-108 | a delete error skips the refetch; a success toasts and refetches |
| UserRoles.OnUser | src/hooks/useUserRole.ts:11-37 | no user or a failed query gives no roles; otherwise the returned roles or none; loading ends |
| UserRoles.FlagsOf | src/hooks/useUserRole.ts:39-40 | admin implies staff; admin iff some role is admin; staff iff some role is other than client |
| UserRoles.ClienteAloneGrantsNothing | src/hooks/useUserRole.ts:39-40 | the client role alone grants neither flag |
| UserRoles.NoUserOrErrorNoFlags | src/hooks/useUserRole.ts:12-31 | signed out or after a failed query, both flags are false |
| UserRoles.FlagsMonotone | src/hooks/useUserRole.ts:39-40 | more roles never remove a flag |
| UserRoleBadge.BadgeFor | src/components/UserRoleBadge.tsx:9-33 | admin gives the admin badge whatever the staff flag; staff without admin gives the staff badge; neither gives the client badge |
| UserRoleBadge.BadgeOfRoles | src/components/UserRoleBadge.tsx:9-33 | fed from the role list, the badge names the highest role held |
| ProtectedRoute.Guard | src/components/ProtectedRoute.tsx:10-38 | spinner iff something is loading; then no user redirects to login; a missing required role redirects home; otherwise the page renders |
| ProtectedRoute.AdminPassesBoth | src/components/ProtectedRoute.tsx:29-37 | an administrator passes both role requirements |
| ProtectedRoute.StaffPageAfterRoleQuery | src/components/ProtectedRoute.tsx:29-37 | with the role hook settled, a staff page renders iff the role query succeeded with a non-client role |
| AdminPage.AdminRedirect | src/pages/Admin.tsx:26-36 | navigates to login iff the session has loaded with no user, and home iff roles have loaded for a non-staff user |
| AdminPage.SortBy | src/pages/Admin.tsx:55 | the sorted copy is a permutation of the bookings |
| AdminPage.SortSorted | src/pages/Admin.tsx:55-59 | the sorted copy is in ascending order of instant |
| AdminPage.SortStable | src/pages/Admin.tsx:55-59 | bookings with the same instant keep their input order |
| AdminPage.SortOfSorted | src/pages/Admin.tsx:55-59 | an already sorted list is left as it is |
| AdminPage.AdminRender | src/pages/Admin.tsx:43-97 | loading while session or roles load; blank unless a staff user is signed in; then loading line, empty message iff the list is empty, or the table sorted by instant |
| MyBookings.Render | src/components/MyBookings.tsx:26-131 | only the loading card while loading; the empty message iff there are no bookings; otherwise the upcoming bookings, each cancellable, and the first five past ones, none cancellable |
| MyBookings.PartitionExact | src/components/MyBookings.tsx:41-49 | a booking with a valid instant is upcoming iff it is at or after now, past iff before; an invalid one is in neither list |
| MyBookings.PartitionComplete | src/components/MyBookings.tsx:41-49 | with valid instants the two lists together hold every booking exactly once |
| MyBookings.PartitionKeepsOrder | src/components/MyBookings.tsx:41-49 | both lists keep the input order |
| MyBookings.OnlyUpcomingCancellable | src/components/MyBookings.tsx:75-118 | a cancel action is offered exactly on upcoming bookings |
| ServiceAdmin.GroupByCategoryCorrect | src/components/AdminServiceManagement.tsx:93-99 | groups have distinct categories, each holds exactly its category's services in list order, none is empty, every service's category has one, and the sizes add up to the number of services |
| ServiceAdmin.ServiceInOneGroup | src/components/AdminServiceManagement.tsx:93-99 | each service is in the group of its category and in no other |
| ServiceAdmin.TogglePatch | src/components/AdminServiceManagement.tsx:89-91 | a toggle asks for the negated active flag and nothing else |
| ServiceAdmin.ResetForm | src/components/AdminServiceManagement.tsx:38-46 | reset empties name, category and price, sets duration to 30 and clears the service being edited |
| ServiceAdmin.HandleCreate | src/components/AdminServiceManagement.tsx:48-60 | a successful create closes the dialog and resets the form; a failure leaves the editor untouched |
| ServiceAdmin.HandleUpdate | src/components/AdminServiceManagement.tsx:62-77 | with nothing being edited no update is sent; a successful update clears the target and resets the form; a failure leaves it |
| ServiceAdmin.RetryAfterFailure | src/components/AdminServiceManagement.tsx:56-59 | after a failed create the typed values remain, and a later successful create clears them |
| ResetPassword.ValidateReset | src/pages/ResetPassword.tsx:36-47 | accepted iff at least 6 UTF-16 units and both fields equal; too short is reported ahead of a mismatch |
| ResetPassword.HandleUpdatePassword | src/pages/ResetPassword.tsx:30-72 | the update is sent iff the rule passes, with a password equal to both fields; home is scheduled iff the update returned no error; loading ends on every path |
| ResetPassword.ShortPasswordNeverSent | src/pages/ResetPassword.tsx:37-47 | a short password is never sent and reports the length message whatever the confirmation |
| ResetPassword.CheckSession | src/pages/ResetPassword.tsx:18-28 | without a session the page toasts and redirects to login |
| ResetPassword.FormShown | src/pages/ResetPassword.tsx:74-76 | the form is rendered iff a session has been confirmed |
| AdminManagement.PromoteUserToRole | src/hooks/useAdminManagement.ts:16-47 | success iff the procedure returned no error and a payload with its success flag; errors carry the returned or thrown message; loading ends |
| AdminManagement.CreateAdminUser | src/hooks/useAdminManagement.ts:49-103 | the account name is the e-mail before `@`; a sign-up error or missing user fails with no promotion; once the account exists a returned promotion failure still succeeds, flagged for manual promotion; a throw fails; loading ends |
| AdminManagement.CreateAgreesWithPromote | src/hooks/useAdminManagement.ts:80-94 | after sign-up, full success without a manual step happens exactly when the same reply makes a plain promotion succeed |
| AdminManagement.FullNameExample | src/hooks/useAdminManagement.ts:58 | `joao@barbearia.com` gets the name `joao` |
| BookingForm.Prefill | src/components/BookingForm.tsx:26-34 | with metadata, name and phone come from it, a missing entry becoming ""; otherwise the inputs stay |
| BookingForm.Locked | src/components/BookingForm.tsx:119-132 | an input is locked iff the metadata supplies a non-empty value for it |
| BookingForm.HandleSubmit | src/components/BookingForm.tsx:36-60 | without a date and time nothing is validated; otherwise the first schema failure is shown, or `onSubmit` gets the trimmed name and the digits of the typed phone for a day not before today |
| BookingForm.SubmittedIsNormal | src/components/BookingForm.tsx:44-52 | submitted values pass the rules again unchanged |
| BookingForm.FormValid | src/components/BookingForm.tsx:62 | the submit button is enabled iff name and phone are non-empty and a date and a time are chosen |
| BookingForm.Render | src/components/BookingForm.tsx:64-101 | a signed-out visitor with a date and time sees the login prompt; everyone else sees the form |
| BookingForm.SignedOutNeverSubmits | src/components/BookingForm.tsx:39-101 | a signed-out visitor never reaches `onSubmit` |
| BookingPage.BookedSlots | src/pages/Index.tsx:27-32 | no date gives no booked times; otherwise a time is booked iff some booking carries that day and that time |
| BookingPage.BookedSlotsAppend | src/pages/Index.tsx:28-31 | the booked times of two lists one after the other are the first list's times followed by the second's, so list order is kept |
| BookingPage.BookedSlotsSingle | src/pages/Index.tsx:28-31 | one booking contributes its time exactly when its date is the formatted selected day |
| BookingPage.OtherDaysIgnored | src/pages/Index.tsx:30 | bookings on other days never block a time |
| BookingPage.HandleBookingSubmit | src/pages/Index.tsx:34-57 | no service creates nothing; no user redirects to login; a missing date or time returns quietly; otherwise the booking asked for carries the formatted date, the time and the user id, without the service; success clears service, date and time, failure keeps them |
| BookingPage.RenderPage | src/pages/Index.tsx:217-294 | pickers and form only with a service; the personal list iff a non-staff user is signed in; the staff list only for staff |
| BookingPage.PanelsExclusive | src/pages/Index.tsx:247-259 | the personal and the staff lists are never both shown |
| BookingPage.FormToBooking | src/pages/Index.tsx:34-57 | composed with the form, a booking is requested iff a service is chosen, and then carries the signed-in user's id, the trimmed typed name, the digits of the typed phone and a day not before today |

## Left out

- The backend client, its row-level policies, the realtime channels that trigger refetches, and the server-side promotion procedure: each call is a response parameter.
- Async interleavings: a refetch racing a mutation, results arriving after unmount, and the role hook's loading flag across a change of user. Each handler is modelled as running to completion.
- Toast and console text. Only which outcome occurred is modelled.
- The account hook (`useAuth`): the session is a parameter.
- Validations.ValidateEmail: the e-mail pattern of the validation library is not part of this model. It is the parameter `isEmail`.
- Calendar.ParseIso: years outside 0..9999, and the engine's lenient reading of out-of-range days (such as February 31) in the non-ISO `date + " " + time` form, are not modelled.
- Instants.LocalInstant: daylight-saving gaps are not modelled (the local clock is continuous). A time past 23:59 gives no instant here, whereas the engine's lenient parser may read some of them.
- AdminPage.SortBy: keys are integers, so the comparator's behaviour when an instant is invalid (a `NaN` difference) is not modelled.
- MyBookings.Render: the two `new Date()` calls are taken as the same instant `now`.
- ServiceAdmin.GroupByCategoryCorrect: groups are in order of first appearance. The engine lists integer-like object keys first, in ascending order, and this is not modelled.
- ServiceAdmin.GroupByCategoryCorrect: a category named after a property every object inherits (`constructor`, `toString`, `valueOf`, `hasOwnProperty`, `__proto__`, ...) finds a truthy `acc[category]`, so no array is made and `push` throws; the panel then fails to render. The model groups such a category like any other, because the object prototype is not modelled.
- Validations.ValidateBooking: the date field uses the corrected rule `Validations.ValidateDate` (see Findings), not the rule as written, which west of UTC refuses today; the as-written rule is `Validations.DateNotPastAsWritten`.
- BookingForm.HandleSubmit: built on `Validations.ValidateBooking`, as are `BookingForm.SubmittedIsNormal` and `BookingPage.FormToBooking`, so it submits a booking for today that the code as written refuses west of UTC with the date message (see Findings).
- Parsing and printing numbers (`parseFloat`, `parseInt`, `toString`) for price and duration in the service editor, including `handleEdit`. Prices are integers of cents in `ServicesStore.Service`.
- The price table and the service picker on the booking page, the time-slot editor, and the user-management panel: these are presentation only. The panel also expects functions the admin hook does not return.
- The day picker's deselection (an `undefined` date): the page then holds no date, as `BookingPage.Selection` allows.

## Findings

| source | as written | input that shows it | evidently intended | confidence | as-written member | corrected member |
|---|---|---|---|---|---|---|
| src/lib/validations.ts:17-22 | `new Date(d)` reads a date-only `yyyy-MM-dd` string as midnight UTC, but `today` is local midnight | in UTC-3 on 2025-06-10, the date `2025-06-10` is refused as being in the past, although the calendar offers today | a date is accepted when it is today or later in the local calendar, as the calendar's own rule does | not executed | Validations.TodayRefusedWestOfUtc | Validations.ValidateDate |

=== FILE: admin_management.dfy ===
/** Account administration (src/hooks/useAdminManagement.ts): promoting a
    user through the `promote_user_role` procedure, and creating a staff
    account followed by its promotion. */
module AdminManagement {
  import opened Wrappers
  import opened Text
  import opened Remote

  /** The role a promotion asks for. */
  datatype StaffRole = PromoteAdmin | PromoteBarbeiro

  /** The procedure's JSON reply; only `success` and `error` are consulted. */
  datatype RpcPayload = RpcPayload(success: bool, message: Option<string>, error: Option<string>)

  /** How a call settled: it threw (carrying the message when the thrown
      value is an `Error`), or it returned an error and/or a payload. */
  datatype RpcCall =
    | RpcThrew(thrown: Option<string>)
    | RpcReturned(error: Option<RemoteError>, data: Option<RpcPayload>)

  /** The message reported for a thrown value that is not an `Error`. */
  const UnknownError := "Erro desconhecido"

  /** The message of a thrown value. */
  function ThrownMessage(thrown: Option<string>): (m: string)
    ensures thrown.Some? ==> m == thrown.value
  {
    thrown.GetOr(UnknownError)
  }

  /** What the two operations return, and the hook's loading flag after
      them. */
  datatype AdminResult = AdminResult(success: bool, needsManualPromotion: bool, error: Option<string>, loading: bool)

  /** `promoteUserToRole`: success exactly when the procedure returned no
      error and a payload whose `success` flag is set. */
  function PromoteUserToRole(call: RpcCall): (res: AdminResult)
    ensures !res.loading && !res.needsManualPromotion
    ensures res.success <==> call.RpcReturned? && call.error.None? && call.data.Some? && call.data.value.success
    ensures call.RpcThrew? ==> res.error == Some(ThrownMessage(call.thrown))
    ensures call.RpcReturned? && call.error.Some? ==> res.error == Some(call.error.value.message)
    ensures res.success ==> res.error.None?
  {
    match call
    case RpcThrew(t) => AdminResult(false, false, Some(ThrownMessage(t)), false)
    case RpcReturned(Some(e), _) => AdminResult(false, false, Some(e.message), false)
    case RpcReturned(None, data) =>
      if data.Some? && data.value.success then AdminResult(true, false, None, false)
      else AdminResult(false, false, if data.Some? then data.value.error else None, false)
  }

  /** How `signUp` settled: it threw, or it returned an error and/or the
      new user's id. */
  datatype SignUpCall =
    | SignUpThrew(thrown: Option<string>)
    | SignUpReturned(error: Option<RemoteError>, user: Option<string>)

  /** What `createAdminUser` asked of the backend: the sign-up with its
      `full_name` metadata, and the promotion if it got that far. */
  datatype CreateTrace = CreateTrace(email: string, password: string, fullName: string,
                                     promotion: Option<(string, StaffRole)>)

  /** The message reported when sign-up returns without a user. */
  const NoUserCreated := "Falha ao criar usuário"

  /** `createAdminUser`: sign-up first; once an account exists a failed
      promotion still counts as success, flagged for manual promotion; a
      throw at either step is a failure. */
  function CreateAdminUser(email: string, password: string, role: StaffRole, signUp: SignUpCall, rpc: RpcCall)
    : (out: (AdminResult, CreateTrace))
    ensures !out.0.loading
    ensures out.1.email == email && out.1.password == password
    ensures out.1.fullName == BeforeFirst(email, '@')
    ensures out.1.promotion.Some? <==> signUp.SignUpReturned? && signUp.error.None? && signUp.user.Some?
    ensures out.1.promotion.Some? ==> out.1.promotion.value == (email, role)
    ensures out.1.promotion.None? ==> !out.0.success
    ensures out.1.promotion.Some? ==> (out.0.success <==> rpc.RpcReturned?)
    ensures out.0.needsManualPromotion <==>
              out.1.promotion.Some? && rpc.RpcReturned? && !(rpc.error.None? && rpc.data.Some? && rpc.data.value.success)
  {
    var trace := CreateTrace(email, password, BeforeFirst(email, '@'), None);
    match signUp
    case SignUpThrew(t) => (AdminResult(false, false, Some(ThrownMessage(t)), false), trace)
    case SignUpReturned(Some(e), _) => (AdminResult(false, false, Some(e.message), false), trace)
    case SignUpReturned(None, None) => (AdminResult(false, false, Some(NoUserCreated), false), trace)
    case SignUpReturned(None, Some(_)) =>
      var trace := trace.(promotion := Some((email, role)));
      match rpc
      case RpcThrew(t) => (AdminResult(false, false, Some(ThrownMessage(t)), false), trace)
      case RpcReturned(Some(_), _) => (AdminResult(true, true, None, false), trace)
      case RpcReturned(None, data) =>
        if data.Some? && data.value.success then (AdminResult(true, false, None, false), trace)
        else (AdminResult(true, true, None, false), trace)
  }

  /** Once the account exists, the creation succeeds and needs no manual
      step exactly when the same reply would make a plain promotion
      succeed. */
  lemma CreateAgreesWithPromote(email: string, password: string, role: StaffRole, user: string, rpc: RpcCall)
    ensures var res := CreateAdminUser(email, password, role, SignUpReturned(None, Some(user)), rpc).0;
            res.success && !res.needsManualPromotion <==> PromoteUserToRole(rpc).success
  {
  }

  /** The metadata name is everything before the first `@`. */
  lemma FullNameExample()
    ensures BeforeFirst("joao@barbearia.com", '@') == "joao"
  {
    var s := "joao@barbearia.com";
    assert s == "joao" + "@barbearia.com";
    BeforeFirstOf("joao", "@barbearia.com", '@');
  }

  /** `split(sep)[0]` of `a + b` is `a` when `a` lacks `sep` and `b` starts
      with it. */
  lemma BeforeFirstOf(a: string, b: string, sep: char)
    requires sep !in a && |b| > 0 && b[0] == sep
    ensures BeforeFirst(a + b, sep) == a
  {
    assert (a + b)[..|a|] == a;
  }
}

=== FILE: admin_page.dfy ===
/** The staff dashboard (src/pages/Admin.tsx): its two redirect effects,
    its render guard, and the chronological ordering of the booking table. */
module AdminPage {
  import opened Wrappers
  import opened Seqs
  import opened Remote
  import opened BookingStore
  import opened ProtectedRoute

  /** The navigation the two effects perform for the current state, if any:
      to the login page once the session has loaded without a user, home
      once the roles have loaded for a user who is not staff. */
  function AdminRedirect(user: Option<string>, authLoading: bool, roleLoading: bool, isBarbeiro: bool)
    : (nav: Option<Path>)
    ensures nav == Some(AuthPage) <==> !authLoading && user.None?
    ensures nav == Some(HomePage) <==> !roleLoading && !isBarbeiro && user.Some?
    ensures nav.None? <==> (authLoading || user.Some?) && (roleLoading || isBarbeiro || user.None?)
  {
    if !authLoading && user.None? then Some(AuthPage)
    else if !roleLoading && !isBarbeiro && user.Some? then Some(HomePage)
    else None
  }

  /** The bookings card: a loading line, the empty message, or the table. */
  datatype BookingsPanel = LoadingBookings | NoBookings | BookingTable(rows: seq<Booking>)

  datatype AdminView = LoadingPage | Blank | Dashboard(panel: BookingsPanel)

  /** Whether `s` is in ascending order of `key`. */
  predicate SortedBy<T>(s: seq<T>, key: T -> int) {
    forall i, j :: 0 <= i < j < |s| ==> key(s[i]) <= key(s[j])
  }

  /** Inserts `x` before the first element whose key is not smaller. */
  function Insert<T>(x: T, s: seq<T>, key: T -> int): (r: seq<T>)
    ensures multiset(r) == multiset(s) + multiset{x}
    ensures |r| == |s| + 1
  {
    if |s| == 0 || key(x) <= key(s[0]) then [x] + s
    else
      assert s == [s[0]] + s[1..];
      [s[0]] + Insert(x, s[1..], key)
  }

  /** `[...bookings].sort((a, b) => key(a) - key(b))`: a stable sort of a
      copy (the engine's sort is stable, so equal keys keep their order). */
  function SortBy<T>(s: seq<T>, key: T -> int): (r: seq<T>)
    ensures multiset(r) == multiset(s)
    ensures |r| == |s|
  {
    if |s| == 0 then []
    else
      assert s == [s[0]] + s[1..];
      Insert(s[0], SortBy(s[1..], key), key)
  }

  /** A lower bound of `x` and of every element of `s` bounds the result
      of the insertion too. */
  lemma {:induction false} InsertLowerBound<T>(x: T, s: seq<T>, key: T -> int, lo: int)
    requires lo <= key(x)
    requires forall i :: 0 <= i < |s| ==> lo <= key(s[i])
    ensures forall i :: 0 <= i < |Insert(x, s, key)| ==> lo <= key(Insert(x, s, key)[i])
  {
    if |s| > 0 && key(x) > key(s[0]) {
      InsertLowerBound(x, s[1..], key, lo);
    }
  }

  /** A sorted tail below a head no greater than its elements is sorted. */
  lemma SortedCons<T>(y: T, rest: seq<T>, key: T -> int)
    requires SortedBy(rest, key)
    requires forall i :: 0 <= i < |rest| ==> key(y) <= key(rest[i])
    ensures SortedBy([y] + rest, key)
  {
    var r := [y] + rest;
    forall i, j | 0 <= i < j < |r| ensures key(r[i]) <= key(r[j]) {
      assert r[j] == rest[j - 1];
      if i > 0 {
        assert r[i] == rest[i - 1];
      }
    }
  }

  lemma {:induction false} InsertSorted<T>(x: T, s: seq<T>, key: T -> int)
    requires SortedBy(s, key)
    ensures SortedBy(Insert(x, s, key), key)
  {
    if |s| == 0 || key(x) <= key(s[0]) {
      SortedCons(x, s, key);
    } else {
      var t := s[1..];
      assert SortedBy(t, key) && forall i :: 0 <= i < |t| ==> key(s[0]) <= key(t[i]) by {
        assert forall i :: 0 <= i < |t| ==> t[i] == s[i + 1];
      }
      InsertSorted(x, t, key);
      InsertLowerBound(x, t, key, key(s[0]));
      SortedCons(s[0], Insert(x, t, key), key);
    }
  }

  /** The sorted copy is in ascending key order. */
  lemma {:induction false} SortSorted<T>(s: seq<T>, key: T -> int)
    ensures SortedBy(SortBy(s, key), key)
  {
    if |s| > 0 {
      SortSorted(s[1..], key);
      InsertSorted(s[0], SortBy(s[1..], key), key);
    }
  }

  /** The elements whose key is `k`. */
  function HasKey<T>(key: T -> int, k: int): T -> bool {
    x => key(x) == k
  }

  /** Two neighbours that a filter never keeps together can be swapped
      without changing what it keeps. */
  lemma FilterSwap<T>(a: T, b: T, t: seq<T>, p: T -> bool)
    requires !(p(a) && p(b))
    ensures Filter([b], p) + Filter([a] + t, p) == Filter([a] + ([b] + t), p)
  {
    var ft := Filter(t, p);
    var fbt := Filter([b] + t, p);
    FilterAppend([b], t, p);
    FilterAppend([a], t, p);
    FilterAppend([a], [b] + t, p);
    FilterSingle(a, p);
    FilterSingle(b, p);
    if p(a) {
      assert Filter([b], p) == [];
      assert fbt == ft;
    } else {
      assert Filter([a], p) == [];
    }
  }

  /** Inserting `x` reorders it only past elements with smaller keys; a
      filter that never keeps both `x` and such an element sees `x` in
      front, where it was. */
  lemma {:induction false} InsertFilter<T>(x: T, s: seq<T>, key: T -> int, p: T -> bool)
    requires forall i :: 0 <= i < |s| && key(s[i]) < key(x) ==> !(p(x) && p(s[i]))
    ensures Filter(Insert(x, s, key), p) == Filter([x] + s, p)
  {
    if |s| == 0 || key(x) <= key(s[0]) {
    } else {
      var t := s[1..];
      assert forall i :: 0 <= i < |t| ==> t[i] == s[i + 1];
      InsertFilter(x, t, key, p);
      FilterAppend([s[0]], Insert(x, t, key), p);
      FilterSwap(x, s[0], t, p);
      assert [s[0]] + t == s;
    }
  }

  lemma InsertStable<T>(x: T, s: seq<T>, key: T -> int, k: int)
    ensures Filter(Insert(x, s, key), HasKey(key, k)) == Filter([x] + s, HasKey(key, k))
  {
    InsertFilter(x, s, key, HasKey(key, k));
  }

  /** Stability: for every key, the elements carrying it appear in the
      sorted copy in the order they had in the input. */
  lemma {:induction false} SortStable<T>(s: seq<T>, key: T -> int, k: int)
    ensures Filter(SortBy(s, key), HasKey(key, k)) == Filter(s, HasKey(key, k))
  {
    var p := HasKey(key, k);
    if |s| > 0 {
      SortStable(s[1..], key, k);
      InsertStable(s[0], SortBy(s[1..], key), key, k);
      FilterAppend([s[0]], SortBy(s[1..], key), p);
      FilterAppend([s[0]], s[1..], p);
      assert s == [s[0]] + s[1..];
    }
  }

  /** Sorting twice gives what sorting once gives: an already sorted copy
      is left as it is. */
  lemma {:induction false} SortOfSorted<T>(s: seq<T>, key: T -> int)
    requires SortedBy(s, key)
    ensures SortBy(s, key) == s
  {
    if |s| > 0 {
      SortOfSorted(s[1..], key);
      assert SortBy(s[1..], key) == s[1..];
    }
  }

  /** What the page renders. `key` is the instant of a booking's date and
      time, the value the comparator subtracts. */
  function AdminRender(user: Option<string>, authLoading: bool, roleLoading: bool, isBarbeiro: bool,
                       bookings: Store<Booking>, key: Booking -> int): (v: AdminView)
    ensures v == LoadingPage <==> authLoading || roleLoading
    ensures v == Blank <==> !authLoading && !roleLoading && (user.None? || !isBarbeiro)
    ensures v.Dashboard? <==> !authLoading && !roleLoading && user.Some? && isBarbeiro
    ensures v.Dashboard? ==> (v.panel == LoadingBookings <==> bookings.loading)
    ensures v.Dashboard? ==> (v.panel == NoBookings <==> !bookings.loading && |bookings.items| == 0)
    ensures v.Dashboard? && v.panel.BookingTable? ==>
              && SortedBy(v.panel.rows, key)
              && multiset(v.panel.rows) == multiset(bookings.items)
  {
    if authLoading || roleLoading then LoadingPage
    else if user.None? || !isBarbeiro then Blank
    else if bookings.loading then Dashboard(LoadingBookings)
    else
      var sorted := SortBy(bookings.items, key);
      SortSorted(bookings.items, key);
      if |sorted| == 0 then Dashboard(NoBookings) else Dashboard(BookingTable(sorted))
  }
}

=== FILE: booking_calendar.dfy ===
/** The day picker's `disabled` rule (src/components/BookingCalendar.tsx):
    a day is refused when its local midnight is before today's local midnight
    or when it falls on a Sunday. */
module BookingCalendar {
  import opened Calendar

  /** A `Date` as the widget hands it over: a local calendar day and the
      minutes elapsed since that day's local midnight. */
  datatype Moment = Moment(date: CalendarDate, minuteOfDay: int)

  /** `setHours(0, 0, 0, 0)`: the moment's local midnight, in minutes on a
      continuous local clock. */
  function Midnight(m: Moment): int {
    DayNumber(m.date) * 1440
  }

  /** The `disabled` callback, `now` being the `new Date()` the component
      takes when it renders. */
  function IsDisabled(candidate: Moment, now: Moment): (disabled: bool)
    ensures disabled <==> DayNumber(candidate.date) < DayNumber(now.date) || Weekday(candidate.date) == Sunday
  {
    Midnight(candidate) < Midnight(now) || Weekday(candidate.date) == Sunday
  }

  /** Every day strictly before today is refused, and so is every Sunday,
      however far ahead. This and the next lemma are the two directions of
      `IsDisabled`'s contract, stated over day numbers; that "before" and
      "Sunday" mean what a calendar means rests on `Calendar.NextDayNumber`
      (consecutive days get consecutive numbers and weekdays) and
      `Calendar.KnownDays`. */
  lemma PastAndSundaysDisabled(candidate: Moment, now: Moment)
    requires DayNumber(candidate.date) < DayNumber(now.date) || Weekday(candidate.date) == Sunday
    ensures IsDisabled(candidate, now)
  {
  }

  /** Today and every later day other than a Sunday can be picked. */
  lemma TodayAndLaterSelectable(candidate: Moment, now: Moment)
    requires DayNumber(candidate.date) >= DayNumber(now.date) && Weekday(candidate.date) != Sunday
    ensures !IsDisabled(candidate, now)
  {
  }

  /** Only the days matter: the time of day of either side is ignored,
      which is what the two `setHours(0, 0, 0, 0)` calls achieve. */
  lemma TimeOfDayIgnored(candidate: Moment, now: Moment, m1: int, m2: int)
    ensures IsDisabled(candidate, now) ==
            IsDisabled(Moment(candidate.date, m1), Moment(now.date, m2))
  {
  }

  /** A concrete Sunday in the future stays disabled. */
  lemma FutureSundayDisabled()
    ensures IsDisabled(Moment(CalendarDate(2025, 6, 8), 600), Moment(CalendarDate(2025, 6, 2), 0))
  {
    KnownDays();
  }
}

=== FILE: booking_form.dfy ===
/** The booking form (src/components/BookingForm.tsx): name and phone,
    prefilled from the account, checked against the booking rules before
    they are handed to the page. */
module BookingForm {
  import opened Wrappers
  import opened Text
  import opened Calendar
  import opened Validations

  /** The account's `user_metadata` entries the form reads. */
  datatype Metadata = Metadata(fullName: Option<string>, phone: Option<string>)

  /** The signed-in user as the form sees it. */
  datatype User = User(id: string, metadata: Option<Metadata>)

  /** The two text inputs. */
  datatype Fields = Fields(name: string, phone: string)

  /** The prefill effect: with metadata present both inputs are overwritten,
      a missing entry becoming the empty string; otherwise they stay. */
  function Prefill(user: Option<User>, f: Fields): (f': Fields)
    ensures user.None? || user.value.metadata.None? ==> f' == f
    ensures user.Some? && user.value.metadata.Some? ==>
              && f'.name == user.value.metadata.value.fullName.GetOr("")
              && f'.phone == user.value.metadata.value.phone.GetOr("")
  {
    if user.Some? && user.value.metadata.Some? then
      Fields(user.value.metadata.value.fullName.GetOr(""), user.value.metadata.value.phone.GetOr(""))
    else f
  }

  /** Whether an input is locked because the account already supplies it. */
  function Locked(user: Option<User>): (locked: (bool, bool))
    ensures locked.0 <==> user.Some? && user.value.metadata.Some? && Truthy(user.value.metadata.value.fullName)
    ensures locked.1 <==> user.Some? && user.value.metadata.Some? && Truthy(user.value.metadata.value.phone)
  {
    var md := if user.Some? then user.value.metadata else None;
    (md.Some? && Truthy(md.value.fullName), md.Some? && Truthy(md.value.phone))
  }

  /** What a submission does. */
  datatype SubmitOutcome =
    | MissingSelection            // the "choose a date and time" toast
    | Invalid(error: FieldError)  // the first schema message as a toast
    | Submitted(name: string, phone: string)   // `onSubmit(name, phone)`

  /** `handleSubmit`: without a date and a non-empty time nothing is
      validated; otherwise the trimmed inputs, the formatted date and the
      time go through the booking rules, and only values that passed reach
      `onSubmit`. */
  function HandleSubmit(date: Option<CalendarDate>, time: Option<string>, f: Fields, today: CalendarDate)
    : (out: SubmitOutcome)
    requires date.Some? ==> Valid(date.value)
    ensures out == MissingSelection <==> date.None? || !Truthy(time)
    ensures out.Submitted? <==>
              date.Some? && Truthy(time) && ValidateBooking(Trim(f.name), Trim(f.phone), FormatIso(date.value), time.value, today).Ok?
    ensures out.Invalid? ==>
              out.error == ValidateBooking(Trim(f.name), Trim(f.phone), FormatIso(date.value), time.value, today).error
    ensures out.Submitted? ==>
              && out.name == Trim(f.name) && NameAccepted(out.name)
              && out.phone == DigitsOnly(Trim(f.phone)) && AllDigits(out.phone) && 8 <= |out.phone| <= 11
              && DayNumber(date.value) >= DayNumber(today)
  {
    if date.None? || !Truthy(time) then MissingSelection
    else
      var r := ValidateBooking(Trim(f.name), Trim(f.phone), FormatIso(date.value), time.value, today);
      TrimIdempotent(f.name);
      TrimIdempotent(f.phone);
      ValidateFormattedDate(date.value, today);
      match r
      case Err(e) => Invalid(e)
      case Ok(v) => Submitted(v.name, v.phone)
  }

  /** What `onSubmit` receives passes the rules again unchanged: the
      submitted name and phone are already in their normal form. */
  lemma SubmittedIsNormal(date: Option<CalendarDate>, time: Option<string>, f: Fields, today: CalendarDate)
    requires date.Some? ==> Valid(date.value)
    requires HandleSubmit(date, time, f, today).Submitted?
    ensures var out := HandleSubmit(date, time, f, today);
            HandleSubmit(date, time, Fields(out.name, out.phone), today) == out
  {
    var day := FormatIso(date.value);
    var v := ValidateBooking(Trim(f.name), Trim(f.phone), day, time.value, today);
    assert v.Ok?;
    ValidateBookingIdempotent(Trim(f.name), Trim(f.phone), day, time.value, today);
    var again := Fields(v.value.name, v.value.phone);
    assert HandleSubmit(date, time, f, today) == Submitted(v.value.name, v.value.phone);
    assert ValidateBooking(Trim(again.name), Trim(again.phone), day, time.value, today) == v;
  }

  /** `isFormValid`: the submit button is enabled exactly when both inputs
      are non-empty and a date and a time are chosen. */
  function FormValid(date: Option<CalendarDate>, time: Option<string>, f: Fields): (ok: bool)
    ensures ok <==> f.name != "" && f.phone != "" && date.Some? && time.Some? && time.value != ""
  {
    f.name != "" && f.phone != "" && date.Some? && Truthy(time)
  }

  /** The card the form renders. */
  datatype FormView = LoginPrompt | FormCard(submitEnabled: bool)

  /** A signed-out visitor who has picked a date and a time sees the login
      prompt; everyone else sees the form. */
  function Render(user: Option<User>, date: Option<CalendarDate>, time: Option<string>, f: Fields): (v: FormView)
    ensures v == LoginPrompt <==> user.None? && date.Some? && Truthy(time)
    ensures v.FormCard? ==> v.submitEnabled == FormValid(date, time, f)
  {
    if user.None? && date.Some? && Truthy(time) then LoginPrompt else FormCard(FormValid(date, time, f))
  }

  /** A signed-out visitor can never get values to `onSubmit`: either the
      login prompt replaces the form, or a submission stops at the missing
      selection. */
  lemma SignedOutNeverSubmits(date: Option<CalendarDate>, time: Option<string>, f: Fields, today: CalendarDate)
    requires date.Some? ==> Valid(date.value)
    ensures Render(None, date, time, f) == LoginPrompt || HandleSubmit(date, time, f, today) == MissingSelection
  {
  }
}

=== FILE: booking_page.dfy ===
/** The booking page (src/pages/Index.tsx): the times already taken on the
    chosen day, the submit handler that turns the form's values into a
    booking, and which panels the page shows. */
module BookingPage {
  import opened Wrappers
  import opened Text
  import opened Seqs
  import opened Calendar
  import opened Remote
  import opened BookingStore
  import opened BookingForm

  /** The page's selection state. */
  datatype Selection = Selection(service: Option<string>, date: Option<CalendarDate>, time: Option<string>)

  predicate ValidSelection(st: Selection) {
    st.date.Some? ==> Valid(st.date.value)
  }

  function OnDate(day: string): Booking -> bool {
    (b: Booking) => b.fields.date == day
  }

  function TimeOf(b: Booking): string {
    b.fields.time
  }

  /** `bookedSlots`: the times of the bookings on the selected day, in list
      order; nothing while no day is selected. A time is taken exactly when
      some booking carries that day and that time. */
  function BookedSlots(bookings: seq<Booking>, date: Option<CalendarDate>): (slots: seq<string>)
    requires date.Some? ==> Valid(date.value)
    ensures date.None? ==> slots == []
    ensures |slots| <= |bookings|
    ensures date.Some? ==> forall t :: t in slots <==>
              exists i :: 0 <= i < |bookings| && bookings[i].fields.date == FormatIso(date.value) && bookings[i].fields.time == t
  {
    if date.None? then []
    else
      TimesOnDay(bookings, FormatIso(date.value));
      Map(Filter(bookings, OnDate(FormatIso(date.value))), TimeOf)
  }

  /** The times of the bookings kept for `day` are exactly the times some
      booking on that day carries. */
  lemma TimesOnDay(bookings: seq<Booking>, day: string)
    ensures forall t :: t in Map(Filter(bookings, OnDate(day)), TimeOf) <==>
              exists i :: 0 <= i < |bookings| && bookings[i].fields.date == day && bookings[i].fields.time == t
  {
    var p := OnDate(day);
    forall t
      ensures t in Map(Filter(bookings, p), TimeOf) <==>
              exists i :: 0 <= i < |bookings| && bookings[i].fields.date == day && bookings[i].fields.time == t
    {
      MapFilterContains(bookings, p, TimeOf, t);
      if exists i :: 0 <= i < |bookings| && p(bookings[i]) && TimeOf(bookings[i]) == t {
        var i :| 0 <= i < |bookings| && p(bookings[i]) && TimeOf(bookings[i]) == t;
        assert bookings[i].fields.date == day && bookings[i].fields.time == t;
      }
      if exists i :: 0 <= i < |bookings| && bookings[i].fields.date == day && bookings[i].fields.time == t {
        var i :| 0 <= i < |bookings| && bookings[i].fields.date == day && bookings[i].fields.time == t;
        assert p(bookings[i]) && TimeOf(bookings[i]) == t;
      }
    }
  }

  /** List order: the booked times of two lists one after the other are
      the first list's times followed by the second's. */
  lemma BookedSlotsAppend(a: seq<Booking>, b: seq<Booking>, d: CalendarDate)
    requires Valid(d)
    ensures BookedSlots(a + b, Some(d)) == BookedSlots(a, Some(d)) + BookedSlots(b, Some(d))
  {
    FilterAppend(a, b, OnDate(FormatIso(d)));
  }

  /** One booking contributes its time exactly when it is on the day. */
  lemma BookedSlotsSingle(b: Booking, d: CalendarDate)
    requires Valid(d)
    ensures BookedSlots([b], Some(d)) == if b.fields.date == FormatIso(d) then [b.fields.time] else []
  {
    FilterSingle(b, OnDate(FormatIso(d)));
  }

  /** Bookings on another day never block a time. */
  lemma OtherDaysIgnored(bookings: seq<Booking>, d: CalendarDate, other: Booking)
    requires Valid(d)
    requires other.fields.date != FormatIso(d)
    ensures BookedSlots(bookings + [other], Some(d)) == BookedSlots(bookings, Some(d))
  {
    BookedSlotsAppend(bookings, [other], d);
    BookedSlotsSingle(other, d);
  }

  /** The result of `handleBookingSubmit`. */
  datatype SubmitResult = SubmitResult(
    request: Option<CreateRequest>,   // the insert asked of the booking hook
    redirectToAuth: bool,
    selection: Selection,             // the selection afterwards
    store: Store<Booking>,            // the booking list afterwards
    success: Option<bool>)            // what `createBooking` returned, if called

  /** `handleBookingSubmit(name, phone)` for the signed-in user's id `user`.
      `resp` and `refetch` stand for the insert's and the refetch's
      responses. */
  function HandleBookingSubmit(st: Selection, user: Option<string>, name: string, phone: string,
                               s: Store<Booking>, resp: Response<BookingFields>,
                               refetch: Response<seq<BookingRow>>): (out: SubmitResult)
    requires ValidSelection(st)
    ensures !Truthy(st.service) ==> out == SubmitResult(None, false, st, s, None)
    ensures Truthy(st.service) && user.None? ==> out == SubmitResult(None, true, st, s, None)
    ensures Truthy(st.service) && user.Some? && (st.date.None? || !Truthy(st.time)) ==>
              out == SubmitResult(None, false, st, s, None)
    ensures out.request.Some? <==> Truthy(st.service) && user.Some? && st.date.Some? && Truthy(st.time)
    ensures out.request.Some? ==>
              out.request.value == CreateRequest(name, phone, FormatIso(st.date.value), st.time.value, user.value, None)
    ensures out.request.Some? ==> out.success == Some(CreateBooking(s, resp, refetch).success)
    ensures out.success == Some(true) ==> out.selection == Selection(None, None, None)
    ensures out.success != Some(true) ==> out.selection == st
    ensures out.redirectToAuth ==> out.request.None?
  {
    if !Truthy(st.service) then SubmitResult(None, false, st, s, None)
    else if st.date.None? || !Truthy(st.time) || user.None? then
      SubmitResult(None, user.None?, st, s, None)
    else
      var req := CreateRequest(name, phone, FormatIso(st.date.value), st.time.value, user.value, None);
      var m := CreateBooking(s, resp, refetch);
      SubmitResult(Some(req), false, if m.success then Selection(None, None, None) else st, m.store, Some(m.success))
  }

  /** The staff list at the foot of the page. */
  datatype StaffPanel = NoStaffPanel | LoadingAll | AllBookings(bookings: seq<Booking>)

  /** Which parts of the booking section are shown. */
  datatype PageView = PageView(pickers: bool, myBookingsFor: Option<string>, staff: StaffPanel)

  function RenderPage(st: Selection, user: Option<string>, isBarbeiro: bool, s: Store<Booking>): (v: PageView)
    ensures v.pickers <==> Truthy(st.service)
    ensures v.myBookingsFor.Some? <==> user.Some? && !isBarbeiro
    ensures v.myBookingsFor.Some? ==> v.myBookingsFor == user
    ensures v.staff == LoadingAll <==> isBarbeiro && s.loading
    ensures v.staff.AllBookings? <==> isBarbeiro && !s.loading && |s.items| > 0
    ensures v.staff.AllBookings? ==> v.staff.bookings == s.items
  {
    PageView(Truthy(st.service),
             if user.Some? && !isBarbeiro then user else None,
             if isBarbeiro && s.loading then LoadingAll
             else if isBarbeiro && |s.items| > 0 then AllBookings(s.items)
             else NoStaffPanel)
  }

  /** A client never sees the staff list and a staff member never sees the
      personal list. */
  lemma PanelsExclusive(st: Selection, user: Option<string>, isBarbeiro: bool, s: Store<Booking>)
    ensures var v := RenderPage(st, user, isBarbeiro, s);
            v.myBookingsFor.None? || v.staff == NoStaffPanel
  {
  }

  /** The form and the page together: whatever the form submits, the
      booking the page requests carries the validated name and a
      digits-only phone, on a day not before today, for the signed-in
      user, and only once a service is chosen. */
  lemma FormToBooking(st: Selection, user: Option<BookingForm.User>, f: Fields, today: CalendarDate,
                      s: Store<Booking>, resp: Response<BookingFields>, refetch: Response<seq<BookingRow>>)
    requires ValidSelection(st)
    requires BookingForm.Render(user, st.date, st.time, f).FormCard?
    requires HandleSubmit(st.date, st.time, f, today).Submitted?
    ensures var sub := HandleSubmit(st.date, st.time, f, today);
            var uid := if user.Some? then Some(user.value.id) else None;
            var out := HandleBookingSubmit(st, uid, sub.name, sub.phone, s, resp, refetch);
            && (out.request.Some? <==> Truthy(st.service))
            && (out.request.Some? ==>
                  && out.request.value.userId == user.value.id
                  && out.request.value.name == Trim(f.name)
                  && out.request.value.phone == DigitsOnly(Trim(f.phone))
                  && AllDigits(out.request.value.phone) && 8 <= |out.request.value.phone| <= 11
                  && out.request.value.date == FormatIso(st.date.value)
                  && DayNumber(st.date.value) >= DayNumber(today))
  {
  }
}

=== FILE: bookings_store.dfy ===
/** The global booking list hook (src/hooks/useBookings.ts), used by the
    booking page and the staff dashboard. */
module BookingStore {
  import opened Wrappers
  import opened Text
  import opened Seqs
  import opened Remote

  /** The columns of a `bookings` row. */
  datatype BookingFields = BookingFields(id: string, name: string, phone: string, date: string,
                                         time: string, userId: string, serviceId: Option<string>,
                                         createdAt: string)

  /** The joined `services(name)` object, which may be `null` or lack a name. */
  datatype JoinedService = JoinedService(name: Option<string>)

  /** A row as the `select("*, service_name:services(name)")` query returns it. */
  datatype BookingRow = BookingRow(fields: BookingFields, service: Option<JoinedService>)

  /** A row after flattening: the joined object replaced by its name. */
  datatype Booking = Booking(fields: BookingFields, serviceName: Option<string>)

  /** `booking.service_name?.name || null`. */
  function ServiceNameOf(j: Option<JoinedService>): (n: Option<string>)
    ensures n.Some? <==> j.Some? && Truthy(j.value.name)
    ensures n.Some? ==> n.value == j.value.name.value && n.value != ""
  {
    if j.Some? && Truthy(j.value.name) then j.value.name else None
  }

  function FlattenRow(r: BookingRow): Booking {
    Booking(r.fields, ServiceNameOf(r.service))
  }

  /** `data?.map(booking => ({ ...booking, service_name: ... })) || []`:
      same length, same order, every other column copied. */
  function Flatten(rows: seq<BookingRow>): (bs: seq<Booking>)
    ensures |bs| == |rows|
    ensures forall i :: 0 <= i < |rows| ==> bs[i].fields == rows[i].fields
    ensures forall i :: 0 <= i < |rows| ==> bs[i].serviceName == ServiceNameOf(rows[i].service)
    ensures forall i :: 0 <= i < |rows| ==>
              (bs[i].serviceName.Some? <==> rows[i].service.Some? && Truthy(rows[i].service.value.name))
  {
    Map(rows, FlattenRow)
  }

  /** Flattening works row by row: two responses back to back flatten to
      the two flattened lists back to back. */
  lemma FlattenAppend(a: seq<BookingRow>, b: seq<BookingRow>)
    ensures Flatten(a + b) == Flatten(a) + Flatten(b)
  {
  }

  /** A fetch response with its rows flattened. */
  function FlattenResponse(r: Response<seq<BookingRow>>): Response<seq<Booking>> {
    Response(r.error, if r.data.Some? then Some(Flatten(r.data.value)) else None)
  }

  /** `fetchBookings`: on error the previous list stays and a toast is
      raised; otherwise the flattened rows replace it; loading ends on both
      paths. */
  function FetchBookings(s: Store<Booking>, r: Response<seq<BookingRow>>): (out: (Store<Booking>, Toast))
    ensures !out.0.loading
    ensures r.error.Some? ==> out.0.items == s.items && out.1.ErrorToast?
    ensures r.error.None? ==> out.0.items == Flatten(r.data.GetOr([])) && out.1 == Quiet
  {
    (ApplyFetch(s, FlattenResponse(r)), FetchToast(r))
  }

  /** The row `createBooking` asks to insert. */
  datatype CreateRequest = CreateRequest(name: string, phone: string, date: string, time: string,
                                         userId: string, serviceId: Option<string>)

  const RowLevelSecurity := "row-level security"

  /** The message a failed insert shows: the login prompt when the backend
      blamed row-level security, the generic one otherwise. */
  function CreateFailureReason(e: RemoteError): (reason: Reason)
    ensures reason == LoginRequired <==> Contains(e.message, RowLevelSecurity)
    ensures reason != LoginRequired ==> reason == Fallback
  {
    if Contains(e.message, RowLevelSecurity) then LoginRequired else Fallback
  }

  /** `createBooking`: a failed insert returns `success: false` with the
      reason above and no refetch; a successful one awaits a refetch and
      returns `success: true`. */
  function CreateBooking(s: Store<Booking>, r: Response<BookingFields>, refetch: Response<seq<BookingRow>>)
    : (m: Mutation<Booking>)
    ensures m.success <==> r.error.None?
    ensures r.error.Some? ==> m.store == s && m.toast == ErrorToast(CreateFailureReason(r.error.value))
    ensures r.error.None? ==> m.store == FetchBookings(s, refetch).0 && m.toast == SuccessToast
  {
    match r.error
    case Some(e) => Mutation(false, ErrorToast(CreateFailureReason(e)), s)
    case None => Mutation(true, SuccessToast, FetchBookings(s, refetch).0)
  }

  /** An insert refused by the row-level policy, whatever the text around
      the policy's name (the backend says "new row violates row-level
      security policy ..."), asks the user to log in. */
  lemma PolicyRefusalAsksForLogin(s: Store<Booking>, refetch: Response<seq<BookingRow>>, before: string, after: string)
    ensures var m := CreateBooking(s, Response(Some(RemoteError(before + RowLevelSecurity + after)), None), refetch);
            !m.success && m.toast == ErrorToast(LoginRequired)
  {
    ContainsSpliced(before, RowLevelSecurity, after);
  }

  /** `deleteBooking(id)`: an error is reported and the refetch skipped;
      otherwise the list is refetched. */
  function DeleteBooking(s: Store<Booking>, r: Response<()>, refetch: Response<seq<BookingRow>>)
    : (out: (Store<Booking>, Toast))
    ensures r.error.Some? ==> out.0 == s && out.1 == ErrorToast(Fallback)
    ensures r.error.None? ==> out.0 == FetchBookings(s, refetch).0 && out.1 == SuccessToast
  {
    if r.error.Some? then (s, ErrorToast(Fallback)) else (FetchBookings(s, refetch).0, SuccessToast)
  }
}

=== FILE: calendar.dfy ===
/** Calendar days as the application sees them: a proleptic Gregorian
    year-month-day, its day number counted from 1970-01-01, its weekday, and
    the `yyyy-MM-dd` text form that bookings store and the booking schema
    checks. This stands in for the date library's `format`, `getDay` and the
    `Date` constructor's parsing of date-only ISO strings. */
module Calendar {
  import opened Wrappers
  import opened Text

  datatype CalendarDate = CalendarDate(year: int, month: int, day: int)

  /** The Gregorian leap-year rule. */
  predicate IsLeap(year: int) {
    (year % 4 == 0 && year % 100 != 0) || year % 400 == 0
  }

  function DaysInMonth(year: int, month: int): (n: int)
    ensures 28 <= n <= 31
  {
    if month == 2 then (if IsLeap(year) then 29 else 28)
    else if month == 4 || month == 6 || month == 9 || month == 11 then 30
    else 31
  }

  /** A real calendar day whose year has four digits. */
  predicate Valid(d: CalendarDate) {
    0 <= d.year <= 9999 && 1 <= d.month <= 12 && 1 <= d.day <= DaysInMonth(d.year, d.month)
  }

  /** Days from the first of March of an era's first year to the first of
      March of its year `yearOfEra`. */
  function EraYearStart(yearOfEra: int): int {
    yearOfEra * 365 + yearOfEra / 4 - yearOfEra / 100
  }

  /** Days from 0000-03-01 to the first of March of year `y`, counting
      whole 400-year eras of 146097 days and then the years of the era. */
  function MarchYearStart(y: int): int {
    var era := y / 400;
    era * 146097 + EraYearStart(y - era * 400)
  }

  /** The year, counted from March, that a day falls in: January and
      February belong to the year before. */
  function MarchYear(d: CalendarDate): int {
    if d.month <= 2 then d.year - 1 else d.year
  }

  /** Days from the first of March to the first of `month`, within a year
      counted from March. */
  function MonthOffset(month: int): int {
    match month
    case 3 => 0    case 4 => 31   case 5 => 61   case 6 => 92
    case 7 => 122  case 8 => 153  case 9 => 184  case 10 => 214
    case 11 => 245 case 12 => 275 case 1 => 306  case _ => 337
  }

  /** Days since 1970-01-01 (negative before it), by the days-from-civil
      method: years are counted from March so that the leap day is last.
      Dafny's `/` on a positive divisor is floor division, as the method
      needs; 719468 is the day of 1970-01-01 counted from 0000-03-01. */
  function DayNumber(d: CalendarDate): int {
    MarchYearStart(MarchYear(d)) + MonthOffset(d.month) + d.day - 1 - 719468
  }

  /** Inside an era, year `k + 1` starts 365 days after year `k`, plus the
      leap day of the February that ends year `k`. */
  lemma EraYearStep(k: int)
    requires 0 <= k < 399
    ensures EraYearStart(k + 1) == EraYearStart(k) + 365 + (if (k + 1) % 4 == 0 && (k + 1) % 100 != 0 then 1 else 0)
  {
  }

  /** Adding whole multiples of 4, 100 or 400 leaves the remainder. */
  lemma ModShift4(k: int, m: int)
    ensures (4 * k + m) % 4 == m % 4
  {
    assert 4 * k + m == 4 * (k + m / 4) + m % 4;
    assert (4 * k + m) / 4 == k + m / 4;
  }

  lemma ModShift100(k: int, m: int)
    ensures (100 * k + m) % 100 == m % 100
  {
    assert 100 * k + m == 100 * (k + m / 100) + m % 100;
    assert (100 * k + m) / 100 == k + m / 100;
  }

  lemma ModShift400(k: int, m: int)
    ensures (400 * k + m) % 400 == m % 400
  {
    assert 400 * k + m == 400 * (k + m / 400) + m % 400;
    assert (400 * k + m) / 400 == k + m / 400;
  }

  /** Inside an era only the 4-year and 100-year rules apply. */
  lemma LeapInEra(era: int, m: int)
    requires 0 < m < 400
    ensures IsLeap(era * 400 + m) <==> m % 4 == 0 && m % 100 != 0
  {
    ModShift4(era * 100, m);
    ModShift100(era * 4, m);
    ModShift400(era, m);
    assert era * 400 + m == 4 * (era * 100) + m == 100 * (era * 4) + m == 400 * era + m;
  }

  /** The first year of an era is a leap year. */
  lemma LeapEra(era: int)
    ensures IsLeap(era * 400)
  {
    assert (era * 400) % 400 == 0;
  }

  /** The year from March of `y` to February of `y + 1` has 365 days, and
      one more when that February has a leap day. */
  lemma MarchYearLength(y: int)
    ensures MarchYearStart(y + 1) == MarchYearStart(y) + 365 + (if IsLeap(y + 1) then 1 else 0)
  {
    var era := y / 400;
    var yoe := y - era * 400;
    assert 0 <= yoe < 400;
    if yoe < 399 {
      assert y + 1 == era * 400 + (yoe + 1);
      assert (y + 1) / 400 == era;
      LeapInEra(era, yoe + 1);
      EraYearStep(yoe);
    } else {
      assert y + 1 == (era + 1) * 400;
      assert (y + 1) / 400 == era + 1;
      LeapEra(era + 1);
      assert EraYearStart(399) == 145731;
      assert EraYearStart(0) == 0;
    }
  }

  /** The calendar day after `d`. */
  function NextDay(d: CalendarDate): CalendarDate {
    if d.day < DaysInMonth(d.year, d.month) then CalendarDate(d.year, d.month, d.day + 1)
    else if d.month < 12 then CalendarDate(d.year, d.month + 1, 1)
    else CalendarDate(d.year + 1, 1, 1)
  }

  /** From the last day of a month other than February and December to the
      first of the next: the same March-based year, one month on. */
  lemma NextMonthNumber(d: CalendarDate)
    requires Valid(d) && d.day == DaysInMonth(d.year, d.month) && d.month != 2 && d.month != 12
    ensures DayNumber(CalendarDate(d.year, d.month + 1, 1)) == DayNumber(d) + 1
  {
  }

  /** From the last day of February to the first of March: a new
      March-based year begins. */
  lemma MarchFirstNumber(d: CalendarDate)
    requires Valid(d) && d.month == 2 && d.day == DaysInMonth(d.year, 2)
    ensures DayNumber(CalendarDate(d.year, 3, 1)) == DayNumber(d) + 1
  {
    MarchYearLength(d.year - 1);
    assert d.year - 1 + 1 == d.year;
  }

  /** From the last day of December to the first of January: the same
      March-based year. */
  lemma NewYearNumber(d: CalendarDate)
    requires Valid(d) && d.month == 12 && d.day == 31
    ensures DayNumber(CalendarDate(d.year + 1, 1, 1)) == DayNumber(d) + 1
  {
  }

  /** The day after a valid day short of the last day of 9999 is valid. */
  lemma NextDayValid(d: CalendarDate)
    requires Valid(d) && d != CalendarDate(9999, 12, 31)
    ensures Valid(NextDay(d))
  {
  }

  /** The day numbering counts days: the day after a valid day (short of
      the last day of 9999) is valid, numbered one more, and falls on the
      next weekday. */
  lemma NextDayNumber(d: CalendarDate)
    requires Valid(d) && d != CalendarDate(9999, 12, 31)
    ensures Valid(NextDay(d))
    ensures DayNumber(NextDay(d)) == DayNumber(d) + 1
    ensures Weekday(NextDay(d)) == (Weekday(d) + 1) % 7
  {
    NextDayValid(d);
    var n := NextDay(d);
    if d.day < DaysInMonth(d.year, d.month) {
      assert n == CalendarDate(d.year, d.month, d.day + 1);
    } else if d.month == 2 {
      assert n == CalendarDate(d.year, 3, 1);
      MarchFirstNumber(d);
    } else if d.month < 12 {
      assert n == CalendarDate(d.year, d.month + 1, 1);
      NextMonthNumber(d);
    } else {
      assert n == CalendarDate(d.year + 1, 1, 1);
      NewYearNumber(d);
    }
    WeekdayStep(DayNumber(d));
  }

  lemma WeekdayStep(n: int)
    ensures (n + 1 + 4) % 7 == ((n + 4) % 7 + 1) % 7
  {
  }

  /** `Date.getDay()`: 0 is Sunday, 6 is Saturday (1970-01-01 was a Thursday). */
  function Weekday(d: CalendarDate): (w: int)
    ensures 0 <= w < 7
  {
    (DayNumber(d) + 4) % 7
  }

  const Sunday := 0

  /** Anchors the day numbering and the weekday against known days. */
  lemma KnownDays()
    ensures DayNumber(CalendarDate(1970, 1, 1)) == 0
    ensures Weekday(CalendarDate(2025, 6, 8)) == Sunday
    ensures Weekday(CalendarDate(2025, 6, 10)) == 2
  {
    Epoch();
    June2025(8);
    June2025(10);
    assert (20247 + 4) % 7 == 0;
    assert (20249 + 4) % 7 == 2;
  }

  lemma Epoch()
    ensures DayNumber(CalendarDate(1970, 1, 1)) == 0
  {
    assert 1969 / 400 == 4;
    assert 369 / 4 == 92 && 369 / 100 == 3;
  }

  lemma June2025(day: int)
    ensures DayNumber(CalendarDate(2025, 6, day)) == 20239 + day
  {
    assert 2025 / 400 == 5;
    assert 25 / 4 == 6 && 25 / 100 == 0;
  }

  function DigitChar(n: int): (c: char)
    requires 0 <= n <= 9
    ensures IsDigit(c)
  {
    (('0' as int) + n) as char
  }

  function DigitValue(c: char): (n: int)
    requires IsDigit(c)
    ensures 0 <= n <= 9
  {
    c as int - '0' as int
  }

  /** The `yyyy-MM-dd` shape the booking schema's date pattern demands:
      four digits, a hyphen, two digits, a hyphen, two digits. */
  predicate IsoDateShape(s: string) {
    && |s| == 10
    && IsDigit(s[0]) && IsDigit(s[1]) && IsDigit(s[2]) && IsDigit(s[3])
    && s[4] == '-' && IsDigit(s[5]) && IsDigit(s[6])
    && s[7] == '-' && IsDigit(s[8]) && IsDigit(s[9])
  }

  /** `format(date, "yyyy-MM-dd")`. */
  function FormatIso(d: CalendarDate): (s: string)
    requires Valid(d)
    ensures IsoDateShape(s)
  {
    var y := d.year;
    [DigitChar(y / 1000), DigitChar(y / 100 % 10), DigitChar(y / 10 % 10), DigitChar(y % 10),
     '-', DigitChar(d.month / 10), DigitChar(d.month % 10),
     '-', DigitChar(d.day / 10), DigitChar(d.day % 10)]
  }

  /** The calendar day `new Date(s)` reads from a `yyyy-MM-dd` string, or
      `None` for the invalid date it yields when the month is outside 01..12
      or the day outside 01..31 (the field ranges of the ECMAScript
      date-time string format). */
  function ParseIso(s: string): (r: Option<CalendarDate>)
    requires IsoDateShape(s)
    ensures r.Some? ==> 1 <= r.value.month <= 12 && 1 <= r.value.day <= 31
    ensures r.Some? ==> 0 <= r.value.year <= 9999
  {
    var year := DigitValue(s[0]) * 1000 + DigitValue(s[1]) * 100 + DigitValue(s[2]) * 10 + DigitValue(s[3]);
    var month := DigitValue(s[5]) * 10 + DigitValue(s[6]);
    var day := DigitValue(s[8]) * 10 + DigitValue(s[9]);
    if 1 <= month <= 12 && 1 <= day <= 31 then Some(CalendarDate(year, month, day)) else None
  }

  lemma FourDigits(y: int)
    requires 0 <= y <= 9999
    ensures y / 1000 * 1000 + y / 100 % 10 * 100 + y / 10 % 10 * 10 + y % 10 == y
  {
    assert y / 10 == y / 100 * 10 + y / 10 % 10 by {
      assert y / 10 / 10 == y / 100;
    }
    assert y / 100 == y / 1000 * 10 + y / 100 % 10 by {
      assert y / 100 / 10 == y / 1000;
    }
  }

  /** Reading back a formatted day gives the same day. */
  lemma ParseFormat(d: CalendarDate)
    requires Valid(d)
    ensures ParseIso(FormatIso(d)) == Some(d)
  {
    var s := FormatIso(d);
    assert DigitValue(s[0]) == d.year / 1000;
    assert DigitValue(s[1]) == d.year / 100 % 10;
    assert DigitValue(s[2]) == d.year / 10 % 10;
    assert DigitValue(s[3]) == d.year % 10;
    FourDigits(d.year);
  }

  /** Two valid days with the same text form are the same day, so comparing
      formatted dates as strings compares days. */
  lemma FormatInjective(d1: CalendarDate, d2: CalendarDate)
    requires Valid(d1) && Valid(d2)
    ensures FormatIso(d1) == FormatIso(d2) <==> d1 == d2
  {
    if FormatIso(d1) == FormatIso(d2) {
      ParseFormat(d1);
      ParseFormat(d2);
    }
  }
}

=== FILE: instants.dfy ===
/** `new Date(booking.date + " " + booking.time)`, the instant both the
    staff table and the personal list derive from a booking's two text
    columns, on a continuous local clock counted in minutes. */
module Instants {
  import opened Wrappers
  import opened Calendar
  import opened Validations

  /** Minutes after midnight of an `HH:MM` string. */
  function MinutesOf(t: string): (m: int)
    requires TimeShape(t)
    ensures 0 <= m <= 99 * 60 + 99
  {
    (DigitValue(t[0]) * 10 + DigitValue(t[1])) * 60 + DigitValue(t[3]) * 10 + DigitValue(t[4])
  }

  /** Whether an `HH:MM` string names a time of day. */
  predicate ClockTime(t: string) {
    TimeShape(t) && DigitValue(t[0]) * 10 + DigitValue(t[1]) <= 23 && DigitValue(t[3]) * 10 + DigitValue(t[4]) <= 59
  }

  /** The local instant of a `yyyy-MM-dd` date and an `HH:MM` time, or
      `None` for the invalid date (`NaN`) any other text yields. */
  function LocalInstant(date: string, time: string): (t: Option<int>)
    ensures t.Some? <==> IsoDateShape(date) && ParseIso(date).Some? && ClockTime(time)
    ensures t.Some? ==> 0 <= t.value - DayNumber(ParseIso(date).value) * 1440 < 1440
  {
    if IsoDateShape(date) && ParseIso(date).Some? && ClockTime(time)
    then Some(DayNumber(ParseIso(date).value) * 1440 + MinutesOf(time))
    else None
  }

  /** Instants order bookings by day first and by time of day second. */
  lemma InstantOrder(d1: string, t1: string, d2: string, t2: string)
    requires LocalInstant(d1, t1).Some? && LocalInstant(d2, t2).Some?
    ensures var a, b := ParseIso(d1).value, ParseIso(d2).value;
            LocalInstant(d1, t1).value < LocalInstant(d2, t2).value <==>
              DayNumber(a) < DayNumber(b) || (DayNumber(a) == DayNumber(b) && MinutesOf(t1) < MinutesOf(t2))
  {
  }

  /** A date written by the calendar and a time from the grid always give
      an instant. */
  lemma FormattedInstant(d: CalendarDate, time: string)
    requires Valid(d) && ClockTime(time)
    ensures LocalInstant(FormatIso(d), time) == Some(DayNumber(d) * 1440 + MinutesOf(time))
  {
    ParseFormat(d);
  }
}

=== FILE: my_bookings.dfy ===
/** The client's own booking card (src/components/MyBookings.tsx): upcoming
    bookings with a cancel action, and a short history of past ones. */
module MyBookings {
  import opened Wrappers
  import opened Seqs
  import opened Remote
  import opened BookingStore
  import opened Instants

  /** The instant of a booking's date and time. */
  function At(b: Booking): Option<int> {
    LocalInstant(b.fields.date, b.fields.time)
  }

  /** `bookingDate >= new Date()`; an invalid date compares false. */
  function IsUpcoming(now: int): Booking -> bool {
    b => At(b).Some? && At(b).value >= now
  }

  /** `bookingDate < new Date()`; an invalid date compares false. */
  function IsPast(now: int): Booking -> bool {
    b => At(b).Some? && At(b).value < now
  }

  /** How many past bookings the history shows. */
  const HistoryLimit := 5

  /** One listed booking and whether it carries the cancel button. */
  datatype Entry = Entry(booking: Booking, cancellable: bool)

  datatype MyBookingsView =
    | LoadingCard
    | EmptyMessage
    | Lists(upcoming: seq<Entry>, history: seq<Entry>)

  /** The card for the hook's state at instant `now`. */
  function Render(s: Store<Booking>, now: int): (v: MyBookingsView)
    ensures v == LoadingCard <==> s.loading
    ensures v == EmptyMessage <==> !s.loading && |s.items| == 0
    ensures v.Lists? ==>
              && |v.upcoming| == |Filter(s.items, IsUpcoming(now))|
              && (forall i :: 0 <= i < |v.upcoming| ==>
                    v.upcoming[i] == Entry(Filter(s.items, IsUpcoming(now))[i], true))
    ensures v.Lists? ==>
              && |v.history| <= HistoryLimit
              && |v.history| == Min(HistoryLimit, |Filter(s.items, IsPast(now))|)
              && (forall i :: 0 <= i < |v.history| ==>
                    v.history[i] == Entry(Filter(s.items, IsPast(now))[i], false))
  {
    if s.loading then LoadingCard
    else if |s.items| == 0 then EmptyMessage
    else
      var upcoming := Filter(s.items, IsUpcoming(now));
      var past := Filter(s.items, IsPast(now));
      Lists(Map(upcoming, b => Entry(b, true)),
            Map(past[..Min(HistoryLimit, |past|)], b => Entry(b, false)))
  }

  function Min(a: int, b: int): int {
    if a <= b then a else b
  }

  /** A booking with a valid date lands in exactly one of the two lists,
      according to its instant; one with an invalid date lands in neither. */
  lemma PartitionExact(bookings: seq<Booking>, now: int, i: int)
    requires 0 <= i < |bookings|
    ensures At(bookings[i]).Some? ==>
              (bookings[i] in Filter(bookings, IsUpcoming(now)) <==> At(bookings[i]).value >= now)
    ensures At(bookings[i]).Some? ==>
              (bookings[i] in Filter(bookings, IsPast(now)) <==> At(bookings[i]).value < now)
    ensures At(bookings[i]).None? ==>
              bookings[i] !in Filter(bookings, IsUpcoming(now)) && bookings[i] !in Filter(bookings, IsPast(now))
  {
    FilterContains(bookings, IsUpcoming(now), bookings[i]);
    FilterContains(bookings, IsPast(now), bookings[i]);
  }

  /** When every date is valid the two lists together hold every booking
      exactly once. */
  lemma PartitionComplete(bookings: seq<Booking>, now: int)
    requires forall i :: 0 <= i < |bookings| ==> At(bookings[i]).Some?
    ensures multiset(Filter(bookings, IsUpcoming(now))) + multiset(Filter(bookings, IsPast(now))) == multiset(bookings)
  {
    FilterSplit(bookings, IsUpcoming(now), IsPast(now));
  }

  /** Both lists keep the input order: the lists of a concatenation are the
      lists of its parts, one after the other. */
  lemma PartitionKeepsOrder(a: seq<Booking>, b: seq<Booking>, now: int)
    ensures Filter(a + b, IsUpcoming(now)) == Filter(a, IsUpcoming(now)) + Filter(b, IsUpcoming(now))
    ensures Filter(a + b, IsPast(now)) == Filter(a, IsPast(now)) + Filter(b, IsPast(now))
  {
    FilterAppend(a, b, IsUpcoming(now));
    FilterAppend(a, b, IsPast(now));
  }

  /** Only upcoming bookings can be cancelled. */
  lemma OnlyUpcomingCancellable(s: Store<Booking>, now: int, e: Entry)
    requires Render(s, now).Lists?
    requires e in Render(s, now).upcoming || e in Render(s, now).history
    ensures e.cancellable <==> e in Render(s, now).upcoming
    ensures e.cancellable ==> At(e.booking).Some? && At(e.booking).value >= now
  {
    var v := Render(s, now);
    if e in v.upcoming {
      var j :| 0 <= j < |v.upcoming| && v.upcoming[j] == e;
    } else {
      var j :| 0 <= j < |v.history| && v.history[j] == e;
    }
  }
}

=== FILE: my_bookings_store.dfy ===
/** The signed-in client's own booking list (src/hooks/useMyBookings.ts). */
module MyBookingsStore {
  import opened Wrappers
  import opened Seqs
  import opened Remote
  import opened BookingStore

  /** `fetchMyBookings`: without a user id it returns at once and changes
      nothing; otherwise an error keeps the list, a result replaces it with
      the flattened rows, and loading ends on both paths. */
  function FetchMyBookings(userId: Option<string>, s: Store<Booking>, r: Response<seq<BookingRow>>)
    : (out: (Store<Booking>, Toast))
    ensures !Truthy(userId) ==> out == (s, Quiet)
    ensures Truthy(userId) ==> !out.0.loading
    ensures Truthy(userId) && r.error.Some? ==> out.0.items == s.items && out.1.ErrorToast?
    ensures Truthy(userId) && r.error.None? ==> out.0.items == Flatten(r.data.GetOr([]))
  {
    if !Truthy(userId) then (s, Quiet) else FetchBookings(s, r)
  }

  /** The mounting effect: with no user id the list is emptied and loading
      ends without any fetch; otherwise the list is fetched. */
  function MountMyBookings(userId: Option<string>, s: Store<Booking>, r: Response<seq<BookingRow>>)
    : (out: (Store<Booking>, Toast))
    ensures !out.0.loading
    ensures !Truthy(userId) ==> out == (Store([], false), Quiet)
    ensures Truthy(userId) ==> out == FetchMyBookings(userId, s, r)
  {
    if !Truthy(userId) then (Store([], false), Quiet) else FetchMyBookings(userId, s, r)
  }

  /** Whether a row is the one `.delete().eq("id", bookingId).eq("user_id", userId)` targets. */
  predicate Targeted(row: BookingFields, bookingId: string, userId: string) {
    row.id == bookingId && row.userId == userId
  }

  /** The table after the owner-scoped delete: the rows it does not target,
      in order. */
  function OwnerScopedDelete(table: seq<BookingFields>, bookingId: string, userId: string)
    : (after: seq<BookingFields>)
    ensures forall i :: 0 <= i < |after| ==> !Targeted(after[i], bookingId, userId)
    ensures forall i :: 0 <= i < |table| && !Targeted(table[i], bookingId, userId) ==> table[i] in after
  {
    var keep := (row: BookingFields) => !Targeted(row, bookingId, userId);
    FilterMembers(table, keep);
    Filter(table, keep)
  }

  /** Rows of any other owner survive the delete untouched, even one that
      carries the same booking id. */
  lemma OthersUntouched(table: seq<BookingFields>, bookingId: string, userId: string)
    ensures Filter(OwnerScopedDelete(table, bookingId, userId), (row: BookingFields) => row.userId != userId)
         == Filter(table, (row: BookingFields) => row.userId != userId)
  {
    OthersUntouchedRec(table, bookingId, userId);
  }

  lemma {:induction false} OthersUntouchedRec(table: seq<BookingFields>, bookingId: string, userId: string)
    ensures Filter(Filter(table, (row: BookingFields) => !Targeted(row, bookingId, userId)), (row: BookingFields) => row.userId != userId)
         == Filter(table, (row: BookingFields) => row.userId != userId)
  {
    if |table| > 0 {
      OthersUntouchedRec(table[1..], bookingId, userId);
      var keep := (row: BookingFields) => !Targeted(row, bookingId, userId);
      var other := (row: BookingFields) => row.userId != userId;
      var head := if keep(table[0]) then [table[0]] else [];
      assert Filter(table, keep) == head + Filter(table[1..], keep);
      FilterAppend(head, Filter(table[1..], keep), other);
    }
  }

  /** `deleteMyBooking`: an error is reported and the refetch skipped;
      otherwise a success toast and a refetch of the user's list. */
  function DeleteMyBooking(userId: Option<string>, s: Store<Booking>, r: Response<()>,
                           refetch: Response<seq<BookingRow>>): (out: (Store<Booking>, Toast))
    ensures r.error.Some? ==> out == (s, ErrorToast(Fallback))
    ensures r.error.None? ==> out.0 == FetchMyBookings(userId, s, refetch).0 && out.1 == SuccessToast
  {
    if r.error.Some? then (s, ErrorToast(Fallback))
    else (FetchMyBookings(userId, s, refetch).0, SuccessToast)
  }
}

=== FILE: protected_route.dfy ===
/** The route guard (src/components/ProtectedRoute.tsx): a spinner while
    the session or the roles are loading, then a redirect or the guarded
    page. */
module ProtectedRoute {
  import opened Wrappers
  import opened Remote
  import opened UserRoles

  /** The two places the application redirects to. */
  datatype Path = AuthPage | HomePage

  /** `requireRole`. */
  datatype RequiredRole = RequireAdmin | RequireBarbeiro

  datatype RouteDecision = Spinner | RedirectTo(path: Path) | RenderChildren

  /** The guard's decision for a session user (its id), the two loading
      flags, the derived role flags and the optional role requirement. */
  function Guard(user: Option<string>, authLoading: bool, roleLoading: bool, flags: Flags,
                 requireRole: Option<RequiredRole>): (d: RouteDecision)
    ensures authLoading || roleLoading <==> d == Spinner
    ensures !authLoading && !roleLoading && user.None? ==> d == RedirectTo(AuthPage)
    ensures d == RenderChildren <==>
              && !authLoading && !roleLoading && user.Some?
              && (requireRole == Some(RequireAdmin) ==> flags.isAdmin)
              && (requireRole == Some(RequireBarbeiro) ==> flags.isBarbeiro)
    ensures d == RedirectTo(HomePage) <==>
              && !authLoading && !roleLoading && user.Some?
              && ((requireRole == Some(RequireAdmin) && !flags.isAdmin)
                  || (requireRole == Some(RequireBarbeiro) && !flags.isBarbeiro))
  {
    if authLoading || roleLoading then Spinner
    else if user.None? then RedirectTo(AuthPage)
    else if requireRole == Some(RequireAdmin) && !flags.isAdmin then RedirectTo(HomePage)
    else if requireRole == Some(RequireBarbeiro) && !flags.isBarbeiro then RedirectTo(HomePage)
    else RenderChildren
  }

  /** An administrator, once everything has loaded, passes every
      requirement. */
  lemma AdminPassesBoth(user: string, roles: seq<Role>, requireRole: Option<RequiredRole>)
    requires Admin in roles
    ensures Guard(Some(user), false, false, FlagsOf(roles), requireRole) == RenderChildren
  {
  }

  /** The guard wired to the role hook: after the hook has settled for a
      signed-in user, a page that needs staff renders iff the query
      succeeded with a role other than client among its rows. */
  lemma StaffPageAfterRoleQuery(user: string, r: Response<seq<Role>>)
    ensures var st := OnUser(Some(user), r);
            Guard(Some(user), false, st.loading, FlagsOf(st.roles), Some(RequireBarbeiro)) == RenderChildren
            <==> r.error.None? && r.data.Some? && exists i :: 0 <= i < |r.data.value| && !r.data.value[i].Cliente?
  {
  }
}

=== FILE: remote.dfy ===
/** What the hooks get back from the hosted backend, as plain input values,
    and the shared way they fold a response into their local list state.
    The backend client itself is not part of this model: each call is
    replaced by the response it produced. */
module Remote {
  import opened Wrappers

  /** The `error` object of a response; only its `message` is consulted. */
  datatype RemoteError = RemoteError(message: string)

  /** `{ data, error }` as a query, insert, update or delete resolves. */
  datatype Response<T> = Response(error: Option<RemoteError>, data: Option<T>)

  /** A hook's list together with its `isLoading` flag. */
  datatype Store<T> = Store(items: seq<T>, loading: bool)

  /** The text an error toast carries: `error.message || fallback`, or one of
      the application's own messages. */
  datatype Reason =
    | Reported(message: string)   // a non-empty message from the backend
    | Fallback                    // the hook's generic message
    | AdminsOnly                  // "only administrators can do this"
    | LoginRequired               // "you must be logged in to book"

  datatype Toast = Quiet | SuccessToast | ErrorToast(reason: Reason) | WarningToast

  /** `error.message || "<generic message>"`. */
  function ReasonOf(e: RemoteError): (r: Reason)
    ensures r.Reported? <==> e.message != ""
    ensures r.Reported? ==> r.message == e.message
    ensures r.Fallback? <==> e.message == ""
  {
    if e.message != "" then Reported(e.message) else Fallback
  }

  /** The outcome of a mutation: the `success` flag it returns, the toast
      it raised, and the list state after any refetch it awaited. */
  datatype Mutation<T> = Mutation(success: bool, toast: Toast, store: Store<T>)

  /** A fetch: on error the list is kept; otherwise it becomes `data || []`.
      The `finally` clause clears the loading flag on both paths. */
  function ApplyFetch<T>(s: Store<T>, r: Response<seq<T>>): (s': Store<T>)
    ensures !s'.loading
    ensures r.error.Some? ==> s'.items == s.items
    ensures r.error.None? && r.data.None? ==> s'.items == []
    ensures r.error.None? && r.data.Some? ==> s'.items == r.data.value
  {
    if r.error.Some? then Store(s.items, false) else Store(r.data.GetOr([]), false)
  }

  /** The toast a failed fetch raises. */
  function FetchToast<T>(r: Response<seq<T>>): (t: Toast)
    ensures t.ErrorToast? <==> r.error.Some?
  {
    if r.error.Some? then ErrorToast(Fallback) else Quiet
  }

  /** Insert or delete in the catalog hooks: an error is reported and ends
      the call; otherwise a success toast, an awaited refetch, `success`. */
  function InsertOrDelete<T, U>(s: Store<T>, r: Response<U>, refetch: Response<seq<T>>): (m: Mutation<T>)
    ensures m.success <==> r.error.None?
    ensures !m.success ==> m.store == s && m.toast == ErrorToast(ReasonOf(r.error.value))
    ensures m.success ==> m.store == ApplyFetch(s, refetch) && m.toast == SuccessToast
  {
    match r.error
    case Some(e) => Mutation(false, ErrorToast(ReasonOf(e)), s)
    case None => Mutation(true, SuccessToast, ApplyFetch(s, refetch))
  }

  /** Update in the catalog hooks, `.update(...).eq("id", id).select()`: an
      error is reported; a missing or empty list of updated rows is taken
      to mean the row-level policy refused, and reported as admins-only;
      otherwise a success toast, an awaited refetch, `success`. */
  function UpdateRows<T, R>(s: Store<T>, r: Response<seq<R>>, refetch: Response<seq<T>>): (m: Mutation<T>)
    ensures m.success <==> r.error.None? && r.data.Some? && |r.data.value| >= 1
    ensures r.error.Some? ==> m.toast == ErrorToast(ReasonOf(r.error.value))
    ensures r.error.None? && !m.success ==> m.toast == ErrorToast(AdminsOnly)
    ensures !m.success ==> m.store == s
    ensures m.success ==> m.store == ApplyFetch(s, refetch) && m.toast == SuccessToast
  {
    if r.error.Some? then Mutation(false, ErrorToast(ReasonOf(r.error.value)), s)
    else if r.data.None? || |r.data.value| == 0 then Mutation(false, ErrorToast(AdminsOnly), s)
    else Mutation(true, SuccessToast, ApplyFetch(s, refetch))
  }

  /** Whatever the refetch returns, a mutation's success is decided by its
      own response alone. */
  lemma SuccessIgnoresRefetch<T, R>(s: Store<T>, r: Response<seq<R>>, f1: Response<seq<T>>, f2: Response<seq<T>>)
    ensures UpdateRows(s, r, f1).success == UpdateRows(s, r, f2).success
    ensures InsertOrDelete(s, r, f1).success == InsertOrDelete(s, r, f2).success
  {
  }
}

=== FILE: reset_password.dfy ===
/** The password-recovery page (src/pages/ResetPassword.tsx): a new
    password typed twice, checked, and sent to the auth service only when
    the check passes. */
module ResetPassword {
  import opened Wrappers
  import opened Text
  import opened Remote

  /** The two messages the page's schema can raise. */
  datatype ResetError = TooShort | Mismatch

  /** The page's schema: at least 6 UTF-16 units, then equal fields. The
      refinement runs even after the length check has failed, and its
      issue is recorded after the length issue, so the first message shown
      is the length one whenever both apply. */
  function ValidateReset(password: string, confirm: string): (r: Result<string, ResetError>)
    ensures r.Ok? <==> Utf16Length(password) >= 6 && password == confirm
    ensures r.Ok? ==> r.value == password && r.value == confirm
    ensures r.Err? ==> (r.error == TooShort <==> Utf16Length(password) < 6)
    ensures r.Err? ==> (r.error == Mismatch <==> Utf16Length(password) >= 6 && password != confirm)
  {
    if Utf16Length(password) < 6 then Err(TooShort)
    else if password != confirm then Err(Mismatch)
    else Ok(password)
  }

  /** How the `updateUser` call settled: it returned (with or without an
      error) or threw. `None` for a thrown value that is not an `Error`. */
  datatype UpdateCall = UpdateReturned(error: Option<RemoteError>) | UpdateThrew(message: Option<string>)

  datatype ResetToast = NoResetToast | ResetSuccess | SchemaError(error: ResetError) | UpdateError(reason: Reason)

  /** The outcome of one submission: the password sent to the service, if
      any, the toast, whether the delayed navigation home was scheduled,
      and the loading flag once the `finally` clause has run. */
  datatype Attempt = Attempt(sent: Option<string>, toast: ResetToast, goHome: bool, loading: bool)

  /** `handleUpdatePassword`. `call` is consulted only when the update is
      sent. */
  function HandleUpdatePassword(password: string, confirm: string, call: UpdateCall): (a: Attempt)
    ensures !a.loading
    ensures a.sent.Some? <==> ValidateReset(password, confirm).Ok?
    ensures a.sent.Some? ==> a.sent.value == password && a.sent.value == confirm && Utf16Length(password) >= 6
    ensures ValidateReset(password, confirm).Err? ==> a.toast == SchemaError(ValidateReset(password, confirm).error) && !a.goHome
    ensures a.goHome <==> a.sent.Some? && call == UpdateReturned(None)
  {
    match ValidateReset(password, confirm)
    case Err(e) => Attempt(None, SchemaError(e), false, false)
    case Ok(pw) =>
      match call
      case UpdateReturned(None) => Attempt(Some(pw), ResetSuccess, true, false)
      case UpdateReturned(Some(e)) => Attempt(Some(pw), UpdateError(ReasonOf(e)), false, false)
      case UpdateThrew(Some(m)) => Attempt(Some(pw), UpdateError(ReasonOf(RemoteError(m))), false, false)
      case UpdateThrew(None) => Attempt(Some(pw), NoResetToast, false, false)
  }

  /** Too short wins over a mismatch, and a short password is never sent. */
  lemma ShortPasswordNeverSent(password: string, confirm: string, call: UpdateCall)
    requires Utf16Length(password) < 6
    ensures HandleUpdatePassword(password, confirm, call).sent.None?
    ensures HandleUpdatePassword(password, confirm, call).toast == SchemaError(TooShort)
  {
  }

  /** The session check: what the page shows and does after `getSession`. */
  datatype SessionCheck = SessionCheck(validSession: bool, invalidLinkToast: bool, redirectToAuth: bool)

  function CheckSession(hasSession: bool): (c: SessionCheck)
    ensures c.validSession <==> hasSession
    ensures c.redirectToAuth <==> !hasSession
    ensures c.invalidLinkToast == c.redirectToAuth
  {
    if hasSession then SessionCheck(true, false, false) else SessionCheck(false, true, true)
  }

  /** Whether the form is rendered: only after a session has been confirmed,
      so before the check settles, and after it fails, nothing is shown. */
  function FormShown(c: Option<SessionCheck>): (shown: bool)
    ensures shown <==> c.Some? && c.value.validSession
  {
    c.Some? && c.value.validSession
  }

  /** A page reached without a session never shows the form and sends the
      visitor to the login page. */
  lemma NoSessionNoForm()
    ensures !FormShown(Some(CheckSession(false))) && CheckSession(false).redirectToAuth
    ensures !FormShown(None)
  {
  }
}

=== FILE: seqs.dfy ===
/** `Array.prototype.filter` and `map` over immutable sequences, with the
    facts the list-shaping code relies on. */
module Seqs {

  /** `s.filter(p)`: the elements satisfying `p`, in their original order. */
  function Filter<T>(s: seq<T>, p: T -> bool): (r: seq<T>)
    ensures |r| <= |s|
    ensures forall i :: 0 <= i < |r| ==> p(r[i])
  {
    if |s| == 0 then [] else (if p(s[0]) then [s[0]] else []) + Filter(s[1..], p)
  }

  /** An element is kept exactly when it occurs in the sequence and
      satisfies `p`. */
  lemma {:induction false} FilterMembers<T>(s: seq<T>, p: T -> bool)
    ensures forall i :: 0 <= i < |Filter(s, p)| ==> Filter(s, p)[i] in s
    ensures forall i :: 0 <= i < |s| && p(s[i]) ==> s[i] in Filter(s, p)
  {
    if |s| > 0 {
      FilterMembers(s[1..], p);
      var r := Filter(s, p);
      var head := if p(s[0]) then [s[0]] else [];
      assert r == head + Filter(s[1..], p);
      forall i | 0 <= i < |r| ensures r[i] in s {
        if i >= |head| {
          assert r[i] == Filter(s[1..], p)[i - |head|];
        }
      }
      forall i | 0 <= i < |s| && p(s[i]) ensures s[i] in r {
        if i > 0 {
          assert s[i] == s[1..][i - 1];
        }
      }
    }
  }

  /** Membership in the filtered sequence, one value at a time. */
  lemma FilterContains<T>(s: seq<T>, p: T -> bool, x: T)
    ensures x in Filter(s, p) <==> x in s && p(x)
  {
    FilterMembers(s, p);
    var r := Filter(s, p);
    if x in r {
      var j :| 0 <= j < |r| && r[j] == x;
    }
    if x in s && p(x) {
      var i :| 0 <= i < |s| && s[i] == x;
    }
  }

  /** A value is among the images of the kept elements exactly when some
      element of the sequence passes `p` and maps to it. */
  lemma MapFilterContains<T, U>(s: seq<T>, p: T -> bool, f: T -> U, y: U)
    ensures y in Map(Filter(s, p), f) <==> exists i :: 0 <= i < |s| && p(s[i]) && f(s[i]) == y
  {
    var r := Filter(s, p);
    if y in Map(r, f) {
      var k :| 0 <= k < |r| && Map(r, f)[k] == y;
      FilterContains(s, p, r[k]);
      var i :| 0 <= i < |s| && s[i] == r[k];
    }
    if exists i :: 0 <= i < |s| && p(s[i]) && f(s[i]) == y {
      var i :| 0 <= i < |s| && p(s[i]) && f(s[i]) == y;
      FilterContains(s, p, s[i]);
      var k :| 0 <= k < |r| && r[k] == s[i];
      assert Map(r, f)[k] == y;
    }
  }

  /** Filtering a one-element sequence keeps it or drops it. */
  lemma FilterSingle<T>(y: T, p: T -> bool)
    ensures Filter([y], p) == if p(y) then [y] else []
  {
    assert [y][1..] == [];
  }

  /** Filtering distributes over concatenation, which is what keeping the
      original order means. */
  lemma {:induction false} FilterAppend<T>(a: seq<T>, b: seq<T>, p: T -> bool)
    ensures Filter(a + b, p) == Filter(a, p) + Filter(b, p)
  {
    if |a| == 0 {
      assert a + b == b;
    } else {
      assert (a + b)[1..] == a[1..] + b;
      FilterAppend(a[1..], b, p);
    }
  }

  /** When every element passes, filtering changes nothing. */
  lemma {:induction false} FilterAll<T>(s: seq<T>, p: T -> bool)
    requires forall i :: 0 <= i < |s| ==> p(s[i])
    ensures Filter(s, p) == s
  {
    if |s| > 0 {
      FilterAll(s[1..], p);
    }
  }

  /** Two predicates that disagree on every element split a sequence: the
      two filters together hold every element exactly as often as the
      sequence does. */
  lemma {:induction false} FilterSplit<T>(s: seq<T>, p: T -> bool, q: T -> bool)
    requires forall i :: 0 <= i < |s| ==> q(s[i]) == !p(s[i])
    ensures multiset(Filter(s, p)) + multiset(Filter(s, q)) == multiset(s)
    ensures |Filter(s, p)| + |Filter(s, q)| == |s|
  {
    if |s| > 0 {
      FilterSplit(s[1..], p, q);
      assert s == [s[0]] + s[1..];
    }
  }

  /** `s.map(f)`. */
  function Map<T, U>(s: seq<T>, f: T -> U): (r: seq<U>)
    ensures |r| == |s|
    ensures forall i :: 0 <= i < |s| ==> r[i] == f(s[i])
  {
    seq(|s|, i requires 0 <= i < |s| => f(s[i]))
  }
}

=== FILE: service_admin.dfy ===
/** The catalogue editor (src/components/AdminServiceManagement.tsx): the
    services grouped by category, the active toggle, and the form and
    dialog state around create and update. */
module ServiceAdmin {
  import opened Wrappers
  import opened Seqs
  import opened Remote
  import opened ServicesStore

  /** One entry of `groupedServices`: a category and its services. */
  datatype Group = Group(category: string, members: seq<Service>)

  function InCategory(c: string): Service -> bool {
    (svc: Service) => svc.category == c
  }

  /** Whether some group is keyed by `c`. */
  predicate HasGroup(groups: seq<Group>, c: string) {
    exists j :: 0 <= j < |groups| && groups[j].category == c
  }

  /** One step of the `reduce`: append the service to its category's
      group, opening a new group at the end for a category not seen yet. */
  function AddService(groups: seq<Group>, svc: Service): seq<Group> {
    if HasGroup(groups, svc.category) then
      seq(|groups|, j requires 0 <= j < |groups| =>
        if groups[j].category == svc.category then Group(svc.category, groups[j].members + [svc]) else groups[j])
    else groups + [Group(svc.category, [svc])]
  }

  /** `services.reduce(...)`, folding from the first service to the last. */
  function GroupByCategory(services: seq<Service>): seq<Group> {
    if |services| == 0 then []
    else AddService(GroupByCategory(services[..|services| - 1]), services[|services| - 1])
  }

  /** The groups partition `services` by category: keys are distinct, each
      group holds exactly the services of its category in list order, no
      group is empty, and every service's category has a group. */
  predicate GroupsOf(groups: seq<Group>, services: seq<Service>) {
    && (forall i, j :: 0 <= i < j < |groups| ==> groups[i].category != groups[j].category)
    && (forall j :: 0 <= j < |groups| ==> groups[j].members == Filter(services, InCategory(groups[j].category)))
    && (forall j :: 0 <= j < |groups| ==> |groups[j].members| > 0)
    && (forall i :: 0 <= i < |services| ==> HasGroup(groups, services[i].category))
  }

  /** The number of services over all groups. */
  function TotalSize(groups: seq<Group>): nat {
    if |groups| == 0 then 0 else |groups[0].members| + TotalSize(groups[1..])
  }

  lemma {:induction false} TotalSizeAppend(groups: seq<Group>, g: Group)
    ensures TotalSize(groups + [g]) == TotalSize(groups) + |g.members|
  {
    if |groups| > 0 {
      assert (groups + [g])[1..] == groups[1..] + [g];
      TotalSizeAppend(groups[1..], g);
    }
  }

  /** Growing one group by one service, and no other, grows the total by one. */
  lemma {:induction false} TotalSizeBump(a: seq<Group>, b: seq<Group>, k: int)
    requires |a| == |b| && 0 <= k < |a|
    requires |b[k].members| == |a[k].members| + 1
    requires forall j :: 0 <= j < |a| && j != k ==> |b[j].members| == |a[j].members|
    ensures TotalSize(b) == TotalSize(a) + 1
  {
    if k > 0 {
      TotalSizeBump(a[1..], b[1..], k - 1);
    } else {
      TotalSizeSame(a[1..], b[1..]);
    }
  }

  lemma {:induction false} TotalSizeSame(a: seq<Group>, b: seq<Group>)
    requires |a| == |b|
    requires forall j :: 0 <= j < |a| ==> |b[j].members| == |a[j].members|
    ensures TotalSize(b) == TotalSize(a)
  {
    if |a| > 0 {
      TotalSizeSame(a[1..], b[1..]);
    }
  }

  /** A category with no group has no service in the list. */
  lemma NoGroupNoMembers(groups: seq<Group>, services: seq<Service>, c: string)
    requires forall i :: 0 <= i < |services| ==> HasGroup(groups, services[i].category)
    requires !HasGroup(groups, c)
    ensures Filter(services, InCategory(c)) == []
  {
    FilterMembers(services, InCategory(c));
  }

  /** After a step each group still holds exactly its category's services. */
  lemma AddServiceMembers(groups: seq<Group>, services: seq<Service>, svc: Service)
    requires GroupsOf(groups, services)
    ensures var r := AddService(groups, svc);
            forall j :: 0 <= j < |r| ==> r[j].members == Filter(services + [svc], InCategory(r[j].category))
  {
    var r := AddService(groups, svc);
    forall j | 0 <= j < |r| ensures r[j].members == Filter(services + [svc], InCategory(r[j].category)) {
      var p := InCategory(r[j].category);
      FilterAppend(services, [svc], p);
      assert [svc][1..] == [];
      if j == |groups| {
        NoGroupNoMembers(groups, services, svc.category);
      }
    }
  }

  /** After a step every service, old or new, has its group. */
  lemma AddServiceCovers(groups: seq<Group>, services: seq<Service>, svc: Service)
    requires forall i :: 0 <= i < |services| ==> HasGroup(groups, services[i].category)
    ensures var r := AddService(groups, svc);
            forall i :: 0 <= i < |services + [svc]| ==> HasGroup(r, (services + [svc])[i].category)
  {
    var r := AddService(groups, svc);
    var s' := services + [svc];
    forall i | 0 <= i < |s'| ensures HasGroup(r, s'[i].category) {
      var c := s'[i].category;
      if HasGroup(groups, c) {
        var g :| 0 <= g < |groups| && groups[g].category == c;
        assert r[g].category == c;
      } else {
        assert c == svc.category;
        assert r[|groups|].category == c;
      }
    }
  }

  /** After a step the keys are still distinct and no group is empty. */
  lemma AddServiceKeys(groups: seq<Group>, svc: Service)
    requires forall i, j :: 0 <= i < j < |groups| ==> groups[i].category != groups[j].category
    requires forall j :: 0 <= j < |groups| ==> |groups[j].members| > 0
    ensures var r := AddService(groups, svc);
            && (forall i, j :: 0 <= i < j < |r| ==> r[i].category != r[j].category)
            && (forall j :: 0 <= j < |r| ==> |r[j].members| > 0)
  {
  }

  /** After a step the total has grown by one. */
  lemma AddServiceSize(groups: seq<Group>, svc: Service)
    requires forall i, j :: 0 <= i < j < |groups| ==> groups[i].category != groups[j].category
    ensures TotalSize(AddService(groups, svc)) == TotalSize(groups) + 1
  {
    var r := AddService(groups, svc);
    if HasGroup(groups, svc.category) {
      var k :| 0 <= k < |groups| && groups[k].category == svc.category;
      TotalSizeBump(groups, r, k);
    } else {
      TotalSizeAppend(groups, Group(svc.category, [svc]));
    }
  }

  /** `groupedServices` partitions the catalogue by category, and the
      group sizes add up to the number of services. */
  lemma {:induction false} GroupByCategoryCorrect(services: seq<Service>)
    ensures GroupsOf(GroupByCategory(services), services)
    ensures TotalSize(GroupByCategory(services)) == |services|
  {
    if |services| > 0 {
      var init := services[..|services| - 1];
      var last := services[|services| - 1];
      var g := GroupByCategory(init);
      assert init + [last] == services;
      assert GroupByCategory(services) == AddService(g, last);
      GroupByCategoryCorrect(init);
      AddServiceMembers(g, init, last);
      AddServiceCovers(g, init, last);
      AddServiceKeys(g, last);
      AddServiceSize(g, last);
    }
  }

  /** Every service is in exactly one group: the one keyed by its category. */
  lemma ServiceInOneGroup(services: seq<Service>, i: int)
    requires 0 <= i < |services|
    ensures var groups := GroupByCategory(services);
            exists j :: 0 <= j < |groups| && groups[j].category == services[i].category && services[i] in groups[j].members
    ensures var groups := GroupByCategory(services);
            forall j :: 0 <= j < |groups| && services[i] in groups[j].members ==> groups[j].category == services[i].category
  {
    var groups := GroupByCategory(services);
    GroupByCategoryCorrect(services);
    FilterMembers(services, InCategory(services[i].category));
    var j :| 0 <= j < |groups| && groups[j].category == services[i].category;
    assert services[i] in groups[j].members;
    forall j' | 0 <= j' < |groups| && services[i] in groups[j'].members
      ensures groups[j'].category == services[i].category
    {
      var m := groups[j'].members;
      var k :| 0 <= k < |m| && m[k] == services[i];
      assert InCategory(groups[j'].category)(m[k]);
    }
  }

  /** `handleToggleActive(id, isActive)`: the update asks for the negated flag
      and nothing else. */
  function TogglePatch(isActive: bool): (p: ServicePatch)
    ensures p.isActive == Some(!isActive)
    ensures p.name.None? && p.category.None? && p.priceCents.None? && p.durationMinutes.None?
  {
    ServicePatch(None, None, None, None, Some(!isActive))
  }

  /** The form fields, as the inputs hold them. */
  datatype ServiceForm = ServiceForm(name: string, category: string, price: string, durationMinutes: string)

  /** The editor's local state: the form, the service being edited, and
      whether the create dialog is open. */
  datatype EditorState = EditorState(form: ServiceForm, editing: Option<Service>, createOpen: bool)

  const BlankForm := ServiceForm("", "", "", "30")

  /** `resetForm`: empty fields with a 30-minute default, nothing being
      edited; the dialog is left as it is. */
  function ResetForm(st: EditorState): (st': EditorState)
    ensures st'.form.name == "" && st'.form.category == "" && st'.form.price == ""
    ensures st'.form.durationMinutes == "30"
    ensures st'.editing.None?
    ensures st'.createOpen == st.createOpen
  {
    EditorState(BlankForm, None, st.createOpen)
  }

  /** `handleCreate`: the insert goes through the catalogue hook; on
      success the dialog closes and the form is reset, on failure the
      editor is untouched. */
  function HandleCreate(st: EditorState, s: Store<Service>, r: Response<()>, refetch: Response<seq<Service>>)
    : (out: (EditorState, Mutation<Service>))
    ensures out.1 == CreateService(s, r, refetch)
    ensures out.1.success <==> r.error.None?
    ensures out.1.success ==> out.0 == EditorState(BlankForm, None, false)
    ensures !out.1.success ==> out.0 == st
  {
    var m := CreateService(s, r, refetch);
    if m.success then (ResetForm(EditorState(st.form, st.editing, false)), m) else (st, m)
  }

  /** `handleUpdate`: without a service being edited nothing is sent;
      otherwise the update goes through the catalogue hook, and on success
      the editing target is cleared and the form reset. */
  function HandleUpdate(st: EditorState, s: Store<Service>, r: Response<seq<Service>>, refetch: Response<seq<Service>>)
    : (out: (EditorState, Option<Mutation<Service>>))
    ensures st.editing.None? ==> out == (st, None)
    ensures st.editing.Some? ==> out.1 == Some(UpdateService(s, r, refetch))
    ensures st.editing.Some? && out.1.value.success ==> out.0 == EditorState(BlankForm, None, st.createOpen)
    ensures st.editing.Some? && !out.1.value.success ==> out.0 == st
  {
    if st.editing.None? then (st, None)
    else
      var m := UpdateService(s, r, refetch);
      if m.success then (ResetForm(st), Some(m)) else (st, Some(m))
  }

  /** A failed create leaves what was typed in place to retry, and a later
      successful one then clears it. */
  lemma RetryAfterFailure(st: EditorState, s: Store<Service>, bad: RemoteError, refetch: Response<seq<Service>>)
    ensures var first := HandleCreate(st, s, Response(Some(bad), None), refetch);
            && first.0 == st
            && HandleCreate(first.0, first.1.store, Response(None, None), refetch).0.form == BlankForm
  {
  }
}

=== FILE: services_store.dfy ===
/** The service catalogue hook (src/hooks/useServices.ts): list, create,
    update and delete over the `services` table. */
module ServicesStore {
  import opened Wrappers
  import opened Remote

  /** A `services` row. The price is kept as an integer amount of cents. */
  datatype Service = Service(id: string, name: string, category: string, priceCents: int,
                             durationMinutes: int, isActive: bool)

  /** The columns an update may change; `None` leaves a column as it is. */
  datatype ServicePatch = ServicePatch(name: Option<string>, category: Option<string>,
                                       priceCents: Option<int>, durationMinutes: Option<int>,
                                       isActive: Option<bool>)

  /** `fetchServices`: an error keeps the previous list and raises a toast;
      loading ends either way. */
  function FetchServices(s: Store<Service>, r: Response<seq<Service>>): (out: (Store<Service>, Toast))
    ensures !out.0.loading
    ensures r.error.Some? ==> out.0.items == s.items && out.1.ErrorToast?
    ensures r.error.None? ==> out.0.items == r.data.GetOr([]) && out.1 == Quiet
  {
    (ApplyFetch(s, r), FetchToast(r))
  }

  /** `createService`: `success` exactly when the insert reports no error,
      after which the list is refetched. */
  function CreateService(s: Store<Service>, r: Response<()>, refetch: Response<seq<Service>>)
    : (m: Mutation<Service>)
    ensures m.success <==> r.error.None?
    ensures !m.success ==> m.store == s
    ensures m.success ==> m.store == ApplyFetch(s, refetch)
  {
    InsertOrDelete(s, r, refetch)
  }

  /** `updateService`: an error, or zero rows updated, is a failure (the
      latter with the admins-only message); one row or more is a success
      followed by a refetch. */
  function UpdateService(s: Store<Service>, r: Response<seq<Service>>, refetch: Response<seq<Service>>)
    : (m: Mutation<Service>)
    ensures r.error.Some? ==> !m.success && m.toast == ErrorToast(ReasonOf(r.error.value))
    ensures r.error.None? && (r.data.None? || r.data.value == []) ==>
              !m.success && m.toast == ErrorToast(AdminsOnly)
    ensures r.error.None? && r.data.Some? && |r.data.value| >= 1 ==>
              m.success && m.store == ApplyFetch(s, refetch)
    ensures !m.success ==> m.store == s
  {
    UpdateRows(s, r, refetch)
  }

  /** `deleteService`: `success` exactly when the delete reports no error. */
  function DeleteService(s: Store<Service>, r: Response<()>, refetch: Response<seq<Service>>)
    : (m: Mutation<Service>)
    ensures m.success <==> r.error.None?
    ensures !m.success ==> m.store == s
    ensures m.success ==> m.store == ApplyFetch(s, refetch)
  {
    InsertOrDelete(s, r, refetch)
  }
}

=== FILE: text.dfy ===
/** Character classes and string helpers with ECMAScript meaning: `\d`, `\s`,
    `String.prototype.trim`, UTF-16 `length`, `includes` and `split`. */
module Text {

  /** `\d`: the ASCII digits only. */
  predicate IsDigit(c: char) {
    '0' <= c <= '9'
  }

  predicate IsAsciiLetter(c: char) {
    'a' <= c <= 'z' || 'A' <= c <= 'Z'
  }

  /** `\s`, which is also exactly the set `trim` strips: the ECMAScript
      WhiteSpace code points (TAB, VT, FF, ZWNBSP and category Zs) and the
      LineTerminator code points (LF, CR, LS, PS). */
  predicate IsSpace(c: char) {
    var n := c as int;
    || n == 0x09 || n == 0x0A || n == 0x0B || n == 0x0C || n == 0x0D
    || n == 0x20 || n == 0xA0 || n == 0x1680 || 0x2000 <= n <= 0x200A
    || n == 0x2028 || n == 0x2029 || n == 0x202F || n == 0x205F
    || n == 0x3000 || n == 0xFEFF
  }

  predicate AllDigits(s: string) {
    forall i :: 0 <= i < |s| ==> IsDigit(s[i])
  }

  /** Length as ECMAScript counts it: characters outside the Basic
      Multilingual Plane take two UTF-16 code units. */
  function Utf16Length(s: string): (n: nat)
    ensures |s| <= n <= 2 * |s|
  {
    if |s| == 0 then 0
    else (if s[0] as int > 0xFFFF then 2 else 1) + Utf16Length(s[1..])
  }

  /** Drops leading `\s` characters. */
  function TrimStart(s: string): (r: string)
    ensures |r| <= |s| && r == s[|s| - |r|..]
    ensures forall i :: 0 <= i < |s| - |r| ==> IsSpace(s[i])
    ensures |r| > 0 ==> !IsSpace(r[0])
  {
    if |s| > 0 && IsSpace(s[0]) then TrimStart(s[1..]) else s
  }

  /** Drops trailing `\s` characters. */
  function TrimEnd(s: string): (r: string)
    ensures |r| <= |s| && r == s[..|r|]
    ensures forall i :: |r| <= i < |s| ==> IsSpace(s[i])
    ensures |r| > 0 ==> !IsSpace(r[|r| - 1])
  {
    if |s| > 0 && IsSpace(s[|s| - 1]) then TrimEnd(s[..|s| - 1]) else s
  }

  /** The number of `\s` characters `s` starts with. */
  function LeadingSpaces(s: string): (n: nat)
    ensures n <= |s|
    ensures forall i :: 0 <= i < n ==> IsSpace(s[i])
    ensures n < |s| ==> !IsSpace(s[n])
  {
    |s| - |TrimStart(s)|
  }

  /** `String.prototype.trim`: the slice of `s` that neither starts nor ends
      with `\s`, everything cut away on either side being `\s`. */
  function Trim(s: string): (r: string)
    ensures LeadingSpaces(s) + |r| <= |s|
    ensures r == s[LeadingSpaces(s)..LeadingSpaces(s) + |r|]
    ensures forall i :: LeadingSpaces(s) + |r| <= i < |s| ==> IsSpace(s[i])
    ensures |r| > 0 ==> !IsSpace(r[0]) && !IsSpace(r[|r| - 1])
  {
    TrimEnd(TrimStart(s))
  }

  /** A string with no `\s` at either end is its own trim. */
  lemma TrimOfTrimmed(s: string)
    requires |s| > 0 ==> !IsSpace(s[0]) && !IsSpace(s[|s| - 1])
    ensures Trim(s) == s
  {
  }

  /** Trimming twice is trimming once. */
  lemma TrimIdempotent(s: string)
    ensures Trim(Trim(s)) == Trim(s)
  {
    TrimOfTrimmed(Trim(s));
  }

  /** `s.replace(/\D/g, '')`: keeps the ASCII digits, in order. */
  function DigitsOnly(s: string): (r: string)
    ensures AllDigits(r)
    ensures |r| <= |s|
    ensures |s| == 1 ==> r == (if IsDigit(s[0]) then s else [])
  {
    if |s| == 0 then ""
    else if IsDigit(s[0]) then [s[0]] + DigitsOnly(s[1..])
    else DigitsOnly(s[1..])
  }

  lemma {:induction false} DigitsOnlyAppend(a: string, b: string)
    ensures DigitsOnly(a + b) == DigitsOnly(a) + DigitsOnly(b)
  {
    if |a| == 0 {
      assert a + b == b;
    } else {
      assert (a + b)[1..] == a[1..] + b;
      DigitsOnlyAppend(a[1..], b);
    }
  }

  /** Stripping non-digits from a string of digits changes nothing. */
  lemma {:induction false} DigitsOnlyOfDigits(s: string)
    requires AllDigits(s)
    ensures DigitsOnly(s) == s
  {
    if |s| > 0 {
      DigitsOnlyOfDigits(s[1..]);
    }
  }

  /** `s.includes(sub)`. */
  predicate Contains(s: string, sub: string) {
    exists i | 0 <= i <= |s| :: OccursAt(s, sub, i)
  }

  predicate OccursAt(s: string, sub: string, i: int) {
    0 <= i && i + |sub| <= |s| && s[i..i + |sub|] == sub
  }

  /** A string contains whatever is spliced into it. */
  lemma ContainsSpliced(a: string, sub: string, b: string)
    ensures OccursAt(a + sub + b, sub, |a|)
    ensures Contains(a + sub + b, sub)
  {
    assert (a + sub + b)[|a|..|a| + |sub|] == sub;
    assert OccursAt(a + sub + b, sub, |a|);
  }

  /** `s.split(sep)[0]`: everything before the first `sep`, or all of `s`. */
  function BeforeFirst(s: string, sep: char): (r: string)
    ensures |r| <= |s| && r == s[..|r|]
    ensures sep !in r
    ensures |r| < |s| ==> s[|r|] == sep
  {
    if |s| == 0 || s[0] == sep then "" else [s[0]] + BeforeFirst(s[1..], sep)
  }
}

=== FILE: time_slot_selector.dfy ===
/** The time picker (src/components/TimeSlotSelector.tsx): a fixed grid of
    half-hour slots, each disabled when its time is among the booked times
    of the selected day. */
module TimeSlotSelector {
  import opened Wrappers
  import opened Calendar
  import opened Validations
  import opened Instants

  /** `availableTimeSlots`: 09:00 to 11:30 and 13:00 to 19:00, every half hour. */
  const AvailableTimeSlots: seq<string> := [
    "09:00", "09:30", "10:00", "10:30", "11:00", "11:30",
    "13:00", "13:30", "14:00", "14:30", "15:00", "15:30",
    "16:00", "16:30", "17:00", "17:30", "18:00", "18:30", "19:00"
  ]

  /** Every entry has the `HH:MM` shape and each is later than the one before. */
  predicate IncreasingTimes(s: seq<string>) {
    && (forall i :: 0 <= i < |s| ==> TimeShape(s[i]))
    && (forall i :: 0 < i < |s| ==> MinutesOf(s[i - 1]) < MinutesOf(s[i]))
  }

  /** The minute of the `i`-th grid slot: every half hour from 09:00,
      skipping the hour from 12:00 to 13:00. */
  function GridMinute(i: int): int {
    9 * 60 + 30 * i + (if i >= 6 then 60 else 0)
  }

  lemma SlotMinutes()
    ensures forall i :: 0 <= i < |AvailableTimeSlots| ==>
              TimeShape(AvailableTimeSlots[i]) && MinutesOf(AvailableTimeSlots[i]) == GridMinute(i)
  {
    var s := AvailableTimeSlots;
    forall i | 0 <= i < |s| ensures TimeShape(s[i]) && MinutesOf(s[i]) == GridMinute(i) {
      if i == 0 { assert s[0] == "09:00"; }
      else if i == 1 { assert s[1] == "09:30"; }
      else if i == 2 { assert s[2] == "10:00"; }
      else if i == 3 { assert s[3] == "10:30"; }
      else if i == 4 { assert s[4] == "11:00"; }
      else if i == 5 { assert s[5] == "11:30"; }
      else if i == 6 { assert s[6] == "13:00"; }
      else if i == 7 { assert s[7] == "13:30"; }
      else if i == 8 { assert s[8] == "14:00"; }
      else if i == 9 { assert s[9] == "14:30"; }
      else if i == 10 { assert s[10] == "15:00"; }
      else if i == 11 { assert s[11] == "15:30"; }
      else if i == 12 { assert s[12] == "16:00"; }
      else if i == 13 { assert s[13] == "16:30"; }
      else if i == 14 { assert s[14] == "17:00"; }
      else if i == 15 { assert s[15] == "17:30"; }
      else if i == 16 { assert s[16] == "18:00"; }
      else if i == 17 { assert s[17] == "18:30"; }
      else { assert s[18] == "19:00"; }
    }
  }

  /** The grid: nineteen strictly increasing times, from 09:00 to 19:00,
      with the lunch break between 11:30 and 13:00 left empty. */
  lemma GridShape()
    ensures |AvailableTimeSlots| == 19
    ensures IncreasingTimes(AvailableTimeSlots)
    ensures MinutesOf(AvailableTimeSlots[0]) == 9 * 60
    ensures MinutesOf(AvailableTimeSlots[18]) == 19 * 60
    ensures forall i :: 0 <= i < |AvailableTimeSlots| ==>
              !(11 * 60 + 30 < MinutesOf(AvailableTimeSlots[i]) < 13 * 60)
  {
    SlotMinutes();
  }

  /** Every time the picker offers passes the booking schema's time rule
      unchanged. */
  lemma GridTimesValid()
    ensures forall i :: 0 <= i < |AvailableTimeSlots| ==> ValidateTime(AvailableTimeSlots[i]) == Ok(AvailableTimeSlots[i])
  {
    SlotMinutes();
  }

  datatype SlotButton = SlotButton(time: string, booked: bool, selected: bool)

  /** What the card shows: a prompt while no date is chosen, otherwise the
      grid and, when some time is taken, the "already reserved" notice. */
  datatype PickerView =
    | AwaitingDate
    | Grid(buttons: seq<SlotButton>, reservedNotice: bool)

  function Render(selectedDate: Option<CalendarDate>, selectedTime: Option<string>, bookedSlots: seq<string>)
    : (v: PickerView)
    ensures v.AwaitingDate? <==> selectedDate.None?
    ensures v.Grid? ==> |v.buttons| == |AvailableTimeSlots|
    ensures v.Grid? ==> forall i :: 0 <= i < |v.buttons| ==>
              && v.buttons[i].time == AvailableTimeSlots[i]
              && (v.buttons[i].booked <==> AvailableTimeSlots[i] in bookedSlots)
              && (v.buttons[i].selected <==> selectedTime == Some(AvailableTimeSlots[i]))
    ensures v.Grid? ==> (v.reservedNotice <==> |bookedSlots| > 0)
  {
    if selectedDate.None? then AwaitingDate
    else
      var buttons := seq(|AvailableTimeSlots|, i requires 0 <= i < |AvailableTimeSlots| =>
        SlotButton(AvailableTimeSlots[i], AvailableTimeSlots[i] in bookedSlots,
                   selectedTime == Some(AvailableTimeSlots[i])));
      Grid(buttons, |bookedSlots| > 0)
  }

  /** `onClick={() => !isBooked && onTimeSelect(time)}`: the time handed to
      `onTimeSelect`, if any. */
  function Click(b: SlotButton): (picked: Option<string>)
    ensures picked.Some? <==> !b.booked
    ensures picked.Some? ==> picked.value == b.time
  {
    if b.booked then None else Some(b.time)
  }

  /** Whatever is clicked, a selection is always a grid time that is not
      booked for the day; booked entries outside the grid change nothing. */
  lemma ClickPicksFreeGridTime(selectedDate: Option<CalendarDate>, selectedTime: Option<string>,
                               bookedSlots: seq<string>, i: int)
    requires Render(selectedDate, selectedTime, bookedSlots).Grid?
    requires 0 <= i < |Render(selectedDate, selectedTime, bookedSlots).buttons|
    ensures var picked := Click(Render(selectedDate, selectedTime, bookedSlots).buttons[i]);
            && (picked.Some? <==> AvailableTimeSlots[i] !in bookedSlots)
            && (picked.Some? ==> picked.value == AvailableTimeSlots[i] && picked.value in AvailableTimeSlots)
  {
  }

  /** Booked times that are not on the grid do not affect what is shown
      besides the notice. */
  lemma OffGridBookingsIgnored(selectedDate: Option<CalendarDate>, selectedTime: Option<string>,
                               bookedSlots: seq<string>, extra: string)
    requires extra !in AvailableTimeSlots
    requires Render(selectedDate, selectedTime, bookedSlots).Grid?
    ensures Render(selectedDate, selectedTime, bookedSlots + [extra]).buttons
         == Render(selectedDate, selectedTime, bookedSlots).buttons
  {
    var a := Render(selectedDate, selectedTime, bookedSlots + [extra]).buttons;
    var b := Render(selectedDate, selectedTime, bookedSlots).buttons;
    forall i | 0 <= i < |a| ensures a[i] == b[i] {
      assert AvailableTimeSlots[i] in bookedSlots + [extra] <==> AvailableTimeSlots[i] in bookedSlots;
    }
  }
}

=== FILE: time_slots_store.dfy ===
/** The time-slot catalogue hook (src/hooks/useTimeSlots.ts): list, create,
    update and delete over the `time_slots` table. */
module TimeSlotsStore {
  import opened Wrappers
  import opened Remote

  /** A `time_slots` row. */
  datatype TimeSlot = TimeSlot(id: string, time: string, isAvailable: bool)

  /** `fetchTimeSlots`: an error keeps the previous list and raises a toast;
      loading ends either way. */
  function FetchTimeSlots(s: Store<TimeSlot>, r: Response<seq<TimeSlot>>): (out: (Store<TimeSlot>, Toast))
    ensures !out.0.loading
    ensures r.error.Some? ==> out.0.items == s.items && out.1.ErrorToast?
    ensures r.error.None? ==> out.0.items == r.data.GetOr([]) && out.1 == Quiet
  {
    (ApplyFetch(s, r), FetchToast(r))
  }

  /** `createTimeSlot`: `success` exactly when the insert reports no error. */
  function CreateTimeSlot(s: Store<TimeSlot>, r: Response<()>, refetch: Response<seq<TimeSlot>>)
    : (m: Mutation<TimeSlot>)
    ensures m.success <==> r.error.None?
    ensures !m.success ==> m.store == s
    ensures m.success ==> m.store == ApplyFetch(s, refetch)
  {
    InsertOrDelete(s, r, refetch)
  }

  /** `updateTimeSlot(id, is_available)`: an error, or zero rows updated, is
      a failure (the latter with the admins-only message); one row or more
      is a success followed by a refetch. */
  function UpdateTimeSlot(s: Store<TimeSlot>, r: Response<seq<TimeSlot>>, refetch: Response<seq<TimeSlot>>)
    : (m: Mutation<TimeSlot>)
    ensures r.error.Some? ==> !m.success && m.toast == ErrorToast(ReasonOf(r.error.value))
    ensures r.error.None? && (r.data.None? || r.data.value == []) ==>
              !m.success && m.toast == ErrorToast(AdminsOnly)
    ensures r.error.None? && r.data.Some? && |r.data.value| >= 1 ==>
              m.success && m.store == ApplyFetch(s, refetch)
    ensures !m.success ==> m.store == s
  {
    UpdateRows(s, r, refetch)
  }

  /** A refused toggle (zero rows come back) leaves the list as it was and
      tells the user only administrators may change slots. */
  lemma RefusedToggleChangesNothing(s: Store<TimeSlot>, refetch: Response<seq<TimeSlot>>)
    ensures UpdateTimeSlot(s, Response(None, Some([])), refetch)
         == Mutation(false, ErrorToast(AdminsOnly), s)
  {
  }

  /** `deleteTimeSlot`: `success` exactly when the delete reports no error. */
  function DeleteTimeSlot(s: Store<TimeSlot>, r: Response<()>, refetch: Response<seq<TimeSlot>>)
    : (m: Mutation<TimeSlot>)
    ensures m.success <==> r.error.None?
    ensures !m.success ==> m.store == s
    ensures m.success ==> m.store == ApplyFetch(s, refetch)
  {
    InsertOrDelete(s, r, refetch)
  }
}

=== FILE: user_role_badge.dfy ===
/** The badge shown next to the user's name (src/components/UserRoleBadge.tsx). */
module UserRoleBadge {
  import opened UserRoles

  datatype Badge = AdminBadge | BarbeiroBadge | ClienteBadge

  /** The administrator badge wins over the staff one; the client badge is
      the fallback. */
  function BadgeFor(isBarbeiro: bool, isAdmin: bool): (b: Badge)
    ensures b == AdminBadge <==> isAdmin
    ensures b == BarbeiroBadge <==> isBarbeiro && !isAdmin
    ensures b == ClienteBadge <==> !isBarbeiro && !isAdmin
  {
    if isAdmin then AdminBadge else if isBarbeiro then BarbeiroBadge else ClienteBadge
  }

  /** Fed from the role hook, the badge names the highest role held. */
  lemma BadgeOfRoles(roles: seq<Role>)
    ensures var f := FlagsOf(roles);
            && (BadgeFor(f.isBarbeiro, f.isAdmin) == AdminBadge <==> Admin in roles)
            && (BadgeFor(f.isBarbeiro, f.isAdmin) == BarbeiroBadge <==> Barbeiro in roles && Admin !in roles)
            && (BadgeFor(f.isBarbeiro, f.isAdmin) == ClienteBadge <==> Barbeiro !in roles && Admin !in roles)
  {
  }
}

=== FILE: user_roles.dfy ===
/** The role hook (src/hooks/useUserRole.ts): the signed-in user's roles as
    read from the `user_roles` table, and the two flags derived from them. */
module UserRoles {
  import opened Wrappers
  import opened Remote

  /** `AppRole`. */
  datatype Role = Admin | Barbeiro | Cliente

  /** The hook's state: the role list and its `loading` flag. */
  datatype RoleState = RoleState(roles: seq<Role>, loading: bool)

  /** The state before the effect has run. */
  const Initial := RoleState([], true)

  /** The effect for the current `user` (its id, `None` when signed out):
      without a user the roles are emptied at once; otherwise a failed query
      empties them and a successful one takes `data || []`; loading ends on
      every path. */
  function OnUser(user: Option<string>, r: Response<seq<Role>>): (st: RoleState)
    ensures !st.loading
    ensures user.None? ==> st.roles == []
    ensures user.Some? && r.error.Some? ==> st.roles == []
    ensures user.Some? && r.error.None? ==> st.roles == r.data.GetOr([])
  {
    if user.None? then RoleState([], false)
    else if r.error.Some? then RoleState([], false)
    else RoleState(r.data.GetOr([]), false)
  }

  /** `isBarbeiro` and `isAdmin`. */
  datatype Flags = Flags(isBarbeiro: bool, isAdmin: bool)

  /** `roles.includes("barbeiro") || roles.includes("admin")` and
      `roles.includes("admin")`: staff means holding any role other than
      client, and an administrator is always staff. */
  function FlagsOf(roles: seq<Role>): (f: Flags)
    ensures f.isAdmin ==> f.isBarbeiro
    ensures f.isAdmin <==> exists i :: 0 <= i < |roles| && roles[i].Admin?
    ensures f.isBarbeiro <==> exists i :: 0 <= i < |roles| && !roles[i].Cliente?
  {
    Flags(Barbeiro in roles || Admin in roles, Admin in roles)
  }

  /** Holding only the client role, or no role at all, grants neither flag. */
  lemma ClienteAloneGrantsNothing(roles: seq<Role>)
    requires forall i :: 0 <= i < |roles| ==> roles[i] == Cliente
    ensures FlagsOf(roles) == Flags(false, false)
  {
  }

  /** Signed out, or after a failed query, neither flag holds and the hook
      is no longer loading. */
  lemma NoUserOrErrorNoFlags(user: Option<string>, r: Response<seq<Role>>)
    requires user.None? || r.error.Some?
    ensures !OnUser(user, r).loading
    ensures FlagsOf(OnUser(user, r).roles) == Flags(false, false)
  {
  }

  /** Adding roles never takes a flag away. */
  lemma FlagsMonotone(roles: seq<Role>, more: seq<Role>)
    ensures FlagsOf(roles).isAdmin ==> FlagsOf(roles + more).isAdmin
    ensures FlagsOf(roles).isBarbeiro ==> FlagsOf(roles + more).isBarbeiro
  {
    if FlagsOf(roles).isAdmin {
      var i :| 0 <= i < |roles| && roles[i].Admin?;
      assert (roles + more)[i] == roles[i];
    }
    if FlagsOf(roles).isBarbeiro {
      var i :| 0 <= i < |roles| && !roles[i].Cliente?;
      assert (roles + more)[i] == roles[i];
    }
  }
}

=== FILE: validations.dfy ===
/** The field rules of `bookingSchema` and `authSchema`
    (src/lib/validations.ts). Each regular expression is written out as a
    recogniser over characters, and each schema reports the first rule that
    fails, in field order and, within a field, in rule order, as the form
    shows only `errors[0]`. */
module Validations {
  import opened Wrappers
  import opened Text
  import opened Calendar

  /** The rules a field can break; one per message of the schemas. */
  datatype FieldError =
    | NameTooShort | NameTooLong | NameNotLetters
    | PhoneFormat
    | DateFormat | DateInPast
    | TimeFormat
    | EmailFormat | EmailTooLong
    | PasswordTooShort | PasswordTooLong

  // ---------------------------------------------------------------- names

  /** `[a-zA-ZÀ-ÿ\s]`: ASCII letters, the code points U+00C0..U+00FF, or `\s`. */
  predicate IsNameChar(c: char) {
    IsAsciiLetter(c) || (0xC0 <= c as int <= 0xFF) || IsSpace(c)
  }

  /** What a trimmed name must satisfy: 2..100 UTF-16 code units, all of
      them name characters. */
  predicate NameAccepted(t: string) {
    2 <= Utf16Length(t) <= 100 && forall i :: 0 <= i < |t| ==> IsNameChar(t[i])
  }

  /** `z.string().trim().min(2).max(100).regex(/^[a-zA-ZÀ-ÿ\s]+$/)`. */
  function ValidateName(raw: string): (r: Result<string, FieldError>)
    ensures r.Ok? <==> NameAccepted(Trim(raw))
    ensures r.Ok? ==> r.value == Trim(raw)
    ensures r.Err? ==> r.error in {NameTooShort, NameTooLong, NameNotLetters}
    ensures r.Err? && r.error == NameTooShort <==> Utf16Length(Trim(raw)) < 2
    ensures r == Err(NameTooLong) <==> Utf16Length(Trim(raw)) > 100
    ensures r == Err(NameNotLetters) <==> 2 <= Utf16Length(Trim(raw)) <= 100 && !NameAccepted(Trim(raw))
  {
    var t := Trim(raw);
    if Utf16Length(t) < 2 then Err(NameTooShort)
    else if Utf16Length(t) > 100 then Err(NameTooLong)
    else if exists i | 0 <= i < |t| :: !IsNameChar(t[i]) then Err(NameNotLetters)
    else Ok(t)
  }

  /** A name that passed is passed again unchanged. */
  lemma ValidateNameIdempotent(raw: string)
    requires ValidateName(raw).Ok?
    ensures ValidateName(ValidateName(raw).value) == ValidateName(raw)
  {
    TrimIdempotent(raw);
  }

  // --------------------------------------------------------------- phones

  /** The optional area-code group `\(?\d{2}\)?\s?`, non-empty form. An
      opening parenthesis, when present, must be consumed (a digit cannot
      match it), and likewise the closing one, so the group is read
      deterministically. */
  predicate AreaGroup(p: string) {
    var q := if |p| > 0 && p[0] == '(' then p[1..] else p;
    && |q| >= 2 && IsDigit(q[0]) && IsDigit(q[1])
    && var rest := if |q| > 2 && q[2] == ')' then q[3..] else q[2..];
       |rest| == 0 || (|rest| == 1 && IsSpace(rest[0]))
  }

  /** `\d{4,5}-?\d{4}`. */
  predicate LocalNumber(r: string) {
    || (8 <= |r| <= 9 && AllDigits(r))
    || (9 <= |r| <= 10 && r[|r| - 5] == '-' && AllDigits(r[..|r| - 5]) && AllDigits(r[|r| - 4..]))
  }

  /** The prefix split off at `i` is the (possibly skipped) area-code group
      and the rest is the local number. */
  predicate PhoneSplit(s: string, i: int) {
    0 <= i <= |s| && (i == 0 || AreaGroup(s[..i])) && LocalNumber(s[i..])
  }

  /** `/^(\(?\d{2}\)?\s?)?\d{4,5}-?\d{4}$/.test(s)`: some split point makes
      the regular expression match, as a backtracking matcher finds. */
  predicate PhoneMatches(s: string) {
    exists i | 0 <= i <= |s| :: PhoneSplit(s, i)
  }

  /** `z.string().trim().regex(...).transform(s => s.replace(/\D/g, ''))`. */
  function ValidatePhone(raw: string): (r: Result<string, FieldError>)
    ensures r.Ok? <==> PhoneMatches(Trim(raw))
    ensures r.Ok? ==> AllDigits(r.value) && 8 <= |r.value| <= 11
    ensures r.Ok? ==> r.value == DigitsOnly(Trim(raw))
    ensures r.Err? ==> r.error == PhoneFormat
  {
    var t := Trim(raw);
    if PhoneMatches(t) then
      PhoneDigitCount(t);
      Ok(DigitsOnly(t))
    else Err(PhoneFormat)
  }

  /** A string with no digits loses everything to `DigitsOnly`. */
  lemma DigitsOnlyOfNonDigits(s: string)
    requires |s| <= 1 && (|s| == 1 ==> !IsDigit(s[0]))
    ensures DigitsOnly(s) == ""
  {
    if |s| == 1 {
      assert DigitsOnly(s) == DigitsOnly(s[1..]);
    }
  }

  lemma AreaGroupDigits(p: string)
    requires AreaGroup(p)
    ensures |DigitsOnly(p)| == 2
  {
    var q := if |p| > 0 && p[0] == '(' then p[1..] else p;
    assert DigitsOnly(p) == DigitsOnly(q);
    var rest := if |q| > 2 && q[2] == ')' then q[3..] else q[2..];
    assert q[1..][1..] == q[2..];
    assert DigitsOnly(q) == [q[0], q[1]] + DigitsOnly(q[2..]);
    assert DigitsOnly(q[2..]) == DigitsOnly(rest) by {
      if |q| > 2 && q[2] == ')' {
        assert q[2..][1..] == q[3..];
      }
    }
    DigitsOnlyOfNonDigits(rest);
  }

  lemma LocalNumberDigits(r: string)
    requires LocalNumber(r)
    ensures 8 <= |DigitsOnly(r)| <= 9
  {
    if 8 <= |r| <= 9 && AllDigits(r) {
      DigitsOnlyOfDigits(r);
    } else {
      var a, b := r[..|r| - 5], r[|r| - 4..];
      assert r == a + "-" + b;
      DigitsOnlyAppend(a + "-", b);
      DigitsOnlyAppend(a, "-");
      DigitsOnlyOfDigits(a);
      DigitsOnlyOfDigits(b);
    }
  }

  /** A matching phone carries 8 to 11 digits: 8 or 9 in the local number
      and 0 or 2 in the area code. */
  lemma PhoneDigitCount(s: string)
    requires PhoneMatches(s)
    ensures 8 <= |DigitsOnly(s)| <= 11
  {
    var i :| 0 <= i <= |s| && PhoneSplit(s, i);
    assert s == s[..i] + s[i..];
    DigitsOnlyAppend(s[..i], s[i..]);
    LocalNumberDigits(s[i..]);
    if i > 0 {
      AreaGroupDigits(s[..i]);
    } else {
      assert s[..i] == "";
    }
  }

  /** The only non-digit a local number may hold is the hyphen before its
      last four digits. */
  lemma LocalNonDigit(r: string, k: int)
    requires LocalNumber(r)
    requires 0 <= k < |r| && !IsDigit(r[k])
    ensures r[k] == '-' && k == |r| - 5
  {
    assert !AllDigits(r);
    assert forall j :: 0 <= j < |r| - 5 ==> r[..|r| - 5][j] == r[j];
    assert forall j :: |r| - 4 <= j < |r| ==> r[|r| - 4..][j - (|r| - 4)] == r[j];
  }

  /** The non-digits an area-code group may hold: the opening parenthesis
      first, the closing one after the two digits, and one trailing `\s`. */
  lemma AreaNonDigit(p: string, k: int)
    requires AreaGroup(p)
    requires 0 <= k < |p| && !IsDigit(p[k])
    ensures || (p[k] == '(' && k == 0)
            || (p[k] == ')' && 2 <= k <= 3)
            || (IsSpace(p[k]) && 2 <= k <= 4)
  {
    var o := if |p| > 0 && p[0] == '(' then 1 else 0;
    var q := p[o..];
    assert k >= o ==> q[k - o] == p[k];
    var c := if |q| > 2 && q[2] == ')' then 1 else 0;
    var rest := q[2 + c..];
    assert |p| == o + 2 + c + |rest|;
    assert k - o >= 2 + c ==> rest[k - o - 2 - c] == q[k - o];
  }

  /** The only non-digits an accepted phone may hold: an opening parenthesis
      first, a closing one right after the two area-code digits, one `\s`
      after the area code, and one hyphen before the last four digits. */
  lemma PhoneNonDigits(s: string, k: int)
    requires PhoneMatches(s)
    requires 0 <= k < |s| && !IsDigit(s[k])
    ensures || (s[k] == '(' && k == 0)
            || (s[k] == ')' && 2 <= k <= 3)
            || (IsSpace(s[k]) && 2 <= k <= 4)
            || (s[k] == '-' && k == |s| - 5)
  {
    var i :| 0 <= i <= |s| && PhoneSplit(s, i);
    if k >= i {
      assert s[i..][k - i] == s[k];
      LocalNonDigit(s[i..], k - i);
    } else {
      assert s[..i][k] == s[k];
      AreaNonDigit(s[..i], k);
    }
  }

  /** Normalised phones round-trip: any string of 8 to 11 digits passes the
      phone rule and comes back unchanged, so storing only digits loses
      nothing a later validation needs. */
  lemma PhoneRoundTrip(d: string)
    requires AllDigits(d) && 8 <= |d| <= 11
    ensures ValidatePhone(d) == Ok(d)
  {
    assert !IsSpace(d[0]) && !IsSpace(d[|d| - 1]) by {
      assert IsDigit(d[0]) && IsDigit(d[|d| - 1]);
    }
    TrimOfTrimmed(d);
    DigitsOnlyOfDigits(d);
    DigitsMatch(d);
  }

  /** A run of 8 to 11 digits matches: the first two are read as the area
      code when there are more than nine. */
  lemma DigitsMatch(d: string)
    requires AllDigits(d) && 8 <= |d| <= 11
    ensures PhoneMatches(d)
  {
    if |d| <= 9 {
      assert d[0..] == d;
      assert PhoneSplit(d, 0);
    } else {
      var p := d[..2];
      assert IsDigit(p[0]) && IsDigit(p[1]) && p[2..] == "";
      assert AreaGroup(p);
      assert LocalNumber(d[2..]);
      assert PhoneSplit(d, 2);
    }
  }

  /** The worked example of the schema's message, `(11) 98765-4321`, passes. */
  lemma PhoneExample()
    ensures ValidatePhone("(11) 98765-4321").Ok?
  {
    var s := "(11) 98765-4321";
    assert !IsSpace(s[0]) && !IsSpace(s[|s| - 1]);
    TrimOfTrimmed(s);
    ExampleSplit();
  }

  lemma ExampleSplit()
    ensures PhoneSplit("(11) 98765-4321", 5)
  {
    var s, p, r := "(11) 98765-4321", "(11) ", "98765-4321";
    assert s[..5] == p && s[5..] == r;
    assert p[1..] == "11) ";
    assert AreaGroup(p);
    assert r[..5] == "98765" && r[6..] == "4321";
    assert LocalNumber(r);
  }

  // ---------------------------------------------------------- date, time

  /** `^\d{2}:\d{2}$`: only the shape; `99:99` passes. */
  predicate TimeShape(t: string) {
    |t| == 5 && IsDigit(t[0]) && IsDigit(t[1]) && t[2] == ':' && IsDigit(t[3]) && IsDigit(t[4])
  }

  function ValidateTime(t: string): (r: Result<string, FieldError>)
    ensures r.Ok? <==> |t| == 5 && IsDigit(t[0]) && IsDigit(t[1]) && t[2] == ':' && IsDigit(t[3]) && IsDigit(t[4])
    ensures r.Ok? ==> r.value == t
    ensures r.Err? ==> r.error == TimeFormat
  {
    if TimeShape(t) then Ok(t) else Err(TimeFormat)
  }

  /** There is no range check on hours or minutes. */
  lemma TimeShapeOnly()
    ensures ValidateTime("99:99").Ok?
    ensures ValidateTime("9:00").Err?
    ensures ValidateTime("09:00 ").Err?
  {
  }

  /** The date rule as intended: a `yyyy-MM-dd` string naming a day that is
      `today` or later, `today` being the caller's local calendar day. */
  function ValidateDate(s: string, today: CalendarDate): (r: Result<string, FieldError>)
    ensures r.Ok? <==> IsoDateShape(s) && ParseIso(s).Some? && DayNumber(ParseIso(s).value) >= DayNumber(today)
    ensures r.Ok? ==> r.value == s
    ensures r.Err? ==> (r.error == DateFormat <==> !IsoDateShape(s))
    ensures r.Err? ==> r.error in {DateFormat, DateInPast}
  {
    if !IsoDateShape(s) then Err(DateFormat)
    else match ParseIso(s)
      case None => Err(DateInPast)
      case Some(d) => if DayNumber(d) >= DayNumber(today) then Ok(s) else Err(DateInPast)
  }

  /** The form submits a formatted calendar day; it passes exactly when that
      day is not before today, so today itself is bookable. */
  lemma ValidateFormattedDate(d: CalendarDate, today: CalendarDate)
    requires Valid(d)
    ensures ValidateDate(FormatIso(d), today).Ok? <==> DayNumber(d) >= DayNumber(today)
  {
    ParseFormat(d);
  }

  /** The date refinement as written: `new Date(s)` reads a date-only ISO
      string as midnight UTC, while `today` is set to local midnight. With
      the local zone `offsetMinutes` ahead of UTC, local midnight of day `t`
      is UTC minute `t * 1440 - offsetMinutes`. */
  predicate DateNotPastAsWritten(s: string, today: CalendarDate, offsetMinutes: int)
    requires IsoDateShape(s)
  {
    match ParseIso(s)
    case None => false
    case Some(d) => DayNumber(d) * 1440 >= DayNumber(today) * 1440 - offsetMinutes
  }

  /** West of UTC (any negative offset under a day, such as UTC-3) the
      as-written rule refuses today and accepts only later days; east of UTC
      it agrees with the intended rule. */
  lemma DateAsWrittenByZone(d: CalendarDate, today: CalendarDate, offsetMinutes: int)
    requires Valid(d)
    requires -1440 < offsetMinutes < 1440
    ensures offsetMinutes < 0 ==>
              (DateNotPastAsWritten(FormatIso(d), today, offsetMinutes) <==> DayNumber(d) > DayNumber(today))
    ensures offsetMinutes >= 0 ==>
              (DateNotPastAsWritten(FormatIso(d), today, offsetMinutes) <==> DayNumber(d) >= DayNumber(today))
  {
    ParseFormat(d);
  }

  /** A concrete case: in UTC-3, booking for today, 2025-06-10, is refused
      by the rule as written and accepted by the intended one. */
  lemma TodayRefusedWestOfUtc()
    ensures !DateNotPastAsWritten("2025-06-10", CalendarDate(2025, 6, 10), -180)
    ensures ValidateDate("2025-06-10", CalendarDate(2025, 6, 10)).Ok?
  {
    var today := CalendarDate(2025, 6, 10);
    assert FormatIso(today) == "2025-06-10";
    DateAsWrittenByZone(today, today, -180);
    ValidateFormattedDate(today, today);
  }

  // ------------------------------------------------------ booking schema

  datatype BookingData = BookingData(name: string, phone: string, date: string, time: string)

  /** `bookingSchema.parse`, with the date rule as intended. */
  function ValidateBooking(name: string, phone: string, date: string, time: string, today: CalendarDate)
    : (r: Result<BookingData, FieldError>)
    ensures r.Ok? <==> && ValidateName(name).Ok? && ValidatePhone(phone).Ok?
                       && ValidateDate(date, today).Ok? && ValidateTime(time).Ok?
    ensures r.Ok? ==> && r.value.name == Trim(name) && NameAccepted(r.value.name)
                      && r.value.phone == DigitsOnly(Trim(phone))
                      && AllDigits(r.value.phone) && 8 <= |r.value.phone| <= 11
                      && r.value.date == date && r.value.time == time
    ensures r.Err? && ValidateName(name).Err? ==> r.error == ValidateName(name).error
    ensures r.Err? && ValidateName(name).Ok? && ValidatePhone(phone).Err? ==> r.error == PhoneFormat
    ensures r.Err? && ValidateName(name).Ok? && ValidatePhone(phone).Ok? && ValidateDate(date, today).Err? ==>
              r.error == ValidateDate(date, today).error
    ensures r.Err? && ValidateName(name).Ok? && ValidatePhone(phone).Ok? && ValidateDate(date, today).Ok? ==>
              r.error == TimeFormat
    ensures r.Err? && r.error == TimeFormat ==>
              ValidateName(name).Ok? && ValidatePhone(phone).Ok? && ValidateDate(date, today).Ok?
  {
    var n := ValidateName(name);
    var p := ValidatePhone(phone);
    var d := ValidateDate(date, today);
    var t := ValidateTime(time);
    if n.Err? then Err(n.error)
    else if p.Err? then Err(p.error)
    else if d.Err? then Err(d.error)
    else if t.Err? then Err(t.error)
    else Ok(BookingData(n.value, p.value, d.value, t.value))
  }

  /** When every field passes, the booking data is made of the four
      parsed values. */
  lemma BookingOfParts(name: string, phone: string, date: string, time: string, today: CalendarDate)
    requires ValidateName(name).Ok? && ValidatePhone(phone).Ok?
    requires ValidateDate(date, today).Ok? && ValidateTime(time).Ok?
    ensures ValidateBooking(name, phone, date, time, today) ==
            Ok(BookingData(ValidateName(name).value, ValidatePhone(phone).value, date, time))
  {
  }

  /** Data already in normal form (a trimmed accepted name, 8 to 11
      digits, a date and a time that pass) validates to itself; such a
      phone has nothing to trim. */
  lemma NormalBookingValidates(v: BookingData, today: CalendarDate)
    requires Trim(v.name) == v.name && NameAccepted(v.name)
    requires AllDigits(v.phone) && 8 <= |v.phone| <= 11
    requires ValidateDate(v.date, today).Ok? && ValidateTime(v.time).Ok?
    ensures Trim(v.phone) == v.phone
    ensures ValidateBooking(v.name, v.phone, v.date, v.time, today) == Ok(v)
  {
    assert IsDigit(v.phone[0]) && IsDigit(v.phone[|v.phone| - 1]);
    TrimOfTrimmed(v.phone);
    PhoneRoundTrip(v.phone);
    BookingOfParts(v.name, v.phone, v.date, v.time, today);
  }

  /** Parsed booking data is a fixed point of the schema: its name and phone
      are already trimmed, and parsing them again gives the same data. */
  lemma ValidateBookingIdempotent(name: string, phone: string, date: string, time: string, today: CalendarDate)
    requires ValidateBooking(name, phone, date, time, today).Ok?
    ensures var v := ValidateBooking(name, phone, date, time, today).value;
            && Trim(v.name) == v.name && Trim(v.phone) == v.phone
            && ValidateBooking(v.name, v.phone, date, time, today) == Ok(v)
  {
    var v := ValidateBooking(name, phone, date, time, today).value;
    TrimIdempotent(name);
    NormalBookingValidates(v, today);
  }

  // --------------------------------------------------------- auth schema

  datatype AuthData = AuthData(email: string, password: string, fullName: string, phone: string)

  /** `z.string().min(8).max(72)`: no trimming. */
  function ValidatePassword(pw: string): (r: Result<string, FieldError>)
    ensures r.Ok? <==> 8 <= Utf16Length(pw) <= 72
    ensures r.Ok? ==> r.value == pw
    ensures r.Err? ==> r.error == (if Utf16Length(pw) < 8 then PasswordTooShort else PasswordTooLong)
  {
    if Utf16Length(pw) < 8 then Err(PasswordTooShort)
    else if Utf16Length(pw) > 72 then Err(PasswordTooLong)
    else Ok(pw)
  }

  /** `z.string().trim().email().max(255)`. The library's e-mail pattern is
      not part of this model and is passed in as `isEmail`. */
  function ValidateEmail(raw: string, isEmail: string -> bool): (r: Result<string, FieldError>)
    ensures r.Ok? <==> isEmail(Trim(raw)) && Utf16Length(Trim(raw)) <= 255
    ensures r.Ok? ==> r.value == Trim(raw)
    ensures r.Err? ==> r.error == (if !isEmail(Trim(raw)) then EmailFormat else EmailTooLong)
  {
    var t := Trim(raw);
    if !isEmail(t) then Err(EmailFormat)
    else if Utf16Length(t) > 255 then Err(EmailTooLong)
    else Ok(t)
  }

  /** `authSchema.parse`: e-mail, password, full name (the booking-name
      rule) and phone (the booking-phone rule), first failure reported. */
  function ValidateAuth(email: string, password: string, fullName: string, phone: string,
                        isEmail: string -> bool): (r: Result<AuthData, FieldError>)
    ensures r.Ok? <==> && ValidateEmail(email, isEmail).Ok? && ValidatePassword(password).Ok?
                       && NameAccepted(Trim(fullName)) && PhoneMatches(Trim(phone))
    ensures r.Ok? ==> && r.value.password == password && 8 <= Utf16Length(password) <= 72
                      && r.value.email == Trim(email) && r.value.fullName == Trim(fullName)
                      && r.value.phone == DigitsOnly(Trim(phone))
                      && AllDigits(r.value.phone) && 8 <= |r.value.phone| <= 11
    ensures r.Err? && ValidateEmail(email, isEmail).Err? ==> r.error == ValidateEmail(email, isEmail).error
    ensures r.Err? && ValidateEmail(email, isEmail).Ok? && ValidatePassword(password).Err? ==>
              r.error == ValidatePassword(password).error
    ensures r.Err? && ValidateEmail(email, isEmail).Ok? && ValidatePassword(password).Ok? && ValidateName(fullName).Err? ==>
              r.error == ValidateName(fullName).error
    ensures r.Err? && ValidateEmail(email, isEmail).Ok? && ValidatePassword(password).Ok? && ValidateName(fullName).Ok? ==>
              r.error == PhoneFormat
  {
    var e := ValidateEmail(email, isEmail);
    var pw := ValidatePassword(password);
    var n := ValidateName(fullName);
    var p := ValidatePhone(phone);
    if e.Err? then Err(e.error)
    else if pw.Err? then Err(pw.error)
    else if n.Err? then Err(n.error)
    else if p.Err? then Err(p.error)
    else Ok(AuthData(e.value, pw.value, n.value, p.value))
  }

  /** The name and phone stored at sign-up pass the booking rules
      unchanged, so a profile that prefills the booking form never trips
      the booking schema on those two fields. */
  lemma SignUpProfileBooks(email: string, password: string, fullName: string, phone: string,
                           isEmail: string -> bool)
    requires ValidateAuth(email, password, fullName, phone, isEmail).Ok?
    ensures var v := ValidateAuth(email, password, fullName, phone, isEmail).value;
            && ValidateName(v.fullName) == Ok(v.fullName)
            && ValidatePhone(v.phone) == Ok(v.phone)
  {
    var v := ValidateAuth(email, password, fullName, phone, isEmail).value;
    TrimIdempotent(fullName);
    PhoneRoundTrip(v.phone);
  }
}

=== FILE: wrappers.dfy ===
/** Option and Result values used throughout the model: `null`/`undefined`
    fields become `Option`, and thrown errors or validation failures become
    the `Err` side of a `Result`. */
module Wrappers {

  datatype Option<+T> = None | Some(value: T) {

    /** The value, or `default` when absent (the `x ?? default` idiom). */
    function GetOr(default: T): T {
      match this
      case Some(v) => v
      case None => default
    }
  }

  datatype Result<+T, +E> = Ok(value: T) | Err(error: E)

  /** ECMAScript truthiness of an optional string: `null`, `undefined` and
      the empty string are all falsy. */
  predicate Truthy(s: Option<string>) {
    s.Some? && s.value != ""
  }
}
